=== FILE: README.md ===
# vite-pixel-perfect asset scripts, modelled in Dafny

The repository ships two asset-pipeline scripts that run before the Vite build:

- `convertFonts.js` lists the font input directory and selects every entry whose
  lower-cased name ends in ".ttf". Each font is converted to WOFF and WOFF2 in the
  output directory. The script records the family, weight and style read from
  each file name (`getFontInfo`) for every selected font, whether or not its
  conversion succeeded. Once the loop ends, it writes a `fonts.scss` style sheet
  (`generateFontsSCSS`). The sheet holds one `@font-face` rule per font, grouped by
  family, and one `$font-…` variable per family.
- `convertImages.js` lists the image input directory and selects the JPEG, PNG,
  GIF and SVG entries by their lower-cased extension. For each image it writes
  an optimised copy under the same name. JPEGs and PNGs also get a WebP version.
  GIFs are copied unchanged.

Both scripts stop before their loop in three cases: the input directory is
missing, it cannot be listed, or nothing in it is selected. Inside the loop,
every file is handled in its own `try`, so a failure ends only the work on that
file.

The model is pure. A directory is a map from entry names to byte strings. An
encoder or optimiser is a function from bytes to bytes or a thrown error. A run
is a function from the input directory, the output directory and the codecs to
the final output directory, the per-file outcomes and, for fonts, the style
sheet's text. The files are:

| file | module | models |
|---|---|---|
| common.dfy | `Common` | `Option`, duplicate-freedom, `Array.prototype.filter` |
| text.dfy | `Text` | `toLowerCase`, `endsWith`, `includes`, `split`/`join`, string building |
| decimal.dfy | `Decimal` | the decimal text of a number (`${n}` in a template) |
| paths.dfy | `Paths` | `path.extname`, and `path.basename` with a suffix |
| files.dfy | `Files` | bytes, codecs that may throw, the listing, writes to the output directory |
| batch.dfy | `Batch` | the per-file `for … of` loop shared by both scripts |
| property_keys.dfy | `PropertyKeys` | the order of `Object.keys`, and the keys a fresh `{}` inherits |
| font_names.dfy | `FontNames` | `getFontInfo` |
| font_name_examples.dfy | `FontNameExamples` | worked examples of `getFontInfo` |
| font_groups.dfy | `FontGroups` | the grouping of fonts by family in `generateFontsSCSS` |
| font_manifest.dfy | `FontManifest` | the text `generateFontsSCSS` writes |
| font_convert.dfy | `FontConvert` | `convertFonts` |
| image_convert.dfy | `ImageConvert` | `processImages` and the four per-format helpers |

## Model

| member | source | states |
|---|---|---|
| Common.Filter | convertFonts.js:71-72 | The kept elements are exactly the listed ones that pass the test, and each kept element passes it |
| Common.FilterAppend | convertImages.js:42-46 | Filtering a listing in two parts gives the two filtered parts one after the other, so listing order is kept |
| Common.FilterNoDup | convertImages.js:42-46 | A listing without repeated names gives a selection without repeated names |
| Text.JoinSplit | convertFonts.js:26 | Joining the pieces of `split('-')` with '-' gives the name back, so no character is lost |
| Text.Split | convertFonts.js:26 | Definition of `split('-')`: the maximal '-'-free pieces, empty ones included. It always yields at least one piece |
| Text.SplitSingle | convertFonts.js:26-33 | `split('-')` yields more than one piece exactly when the name contains '-' |
| Text.Lower | convertFonts.js:34 | Definition of `toLowerCase` on ASCII letters; every other character is kept |
| Text.EndsWith | convertFonts.js:72 | Definition of `endsWith`: the string's last characters are the suffix |
| Text.Contains | convertFonts.js:36-47 | Definition of `includes`: some position where the word occurs; the empty word always occurs |
| Text.SplitJoin | convertFonts.js:26 | Splitting a '-'-join of '-'-free pieces gives the pieces back |
| Text.SplitPiecesSeparatorFree | convertFonts.js:26 | No piece of `split('-')` contains a '-' |
| Text.SplitAfterWord | convertFonts.js:26-28 | A '-'-free word at the front of a name is the start of the first token, and the rest of the split is the split of what follows |
| Text.ContainsTransitive | convertFonts.js:36-44 | A string containing `m` contains every word that `m` contains (the basis of the keyword shadowing) |
| Text.ConcatHoldsEach | convertFonts.js:156-167 | Every piece appended to the style sheet text is found in the final text |
| Decimal.ValueOfShow | convertFonts.js:162 | The printed weight reads back as the weight |
| Decimal.ShowOfValue | convertFonts.js:162 | Every canonical digit string is the printed form of its value, so printing is one-to-one |
| Decimal.Show | convertFonts.js:162 | A weight is printed as a non-empty string of decimal digits with no leading zero |
| Paths.LastDot | convertImages.js:44 | The position found is a '.', and no '.' follows it |
| Paths.ExtName | convertImages.js:44 | The extension is empty exactly for a name with no dot after its first character, or for '..'. Otherwise it starts with its only '.', is a proper suffix of the name and is shorter than it |
| Paths.BasenameOfName | convertFonts.js:25 | A name ending in the suffix loses exactly that suffix (case-sensitive). Any other name is returned unchanged |
| Paths.BasenameOfPath | convertFonts.js:92 | For a full path the result is never empty. A name equal to the suffix is kept whole. Otherwise the suffix is stripped as for a bare name |
| Files.Apply | convertFonts.js:109-119 | After the writes, the output directory holds exactly its old entries plus every written name |
| Files.ApplyLookup | convertImages.js:123 | A name holds the data of its last write. A name that was never written keeps its old content |
| Files.LastWriteFound | convertFonts.js:109-119 | A last write to a name exists exactly when some write targets that name |
| Files.ApplyTwice | convertImages.js:71-103 | Performing the same writes a second time leaves the directory as it was after the first time |
| Batch.RunAll | convertFonts.js:90-127 | Every selected file gets exactly one outcome, in listing order. Every write performed is a write of one of the files |
| Batch.RunAllConcat | convertImages.js:61-104 | The loop over two consecutive listings performs the first listing's writes, then the second's |
| Batch.RunAllNotWritten | convertImages.js:61-104 | A name that no file writes is not written by the loop |
| Batch.OutputSurvivesLaterFiles | convertImages.js:61-104 | Per-file isolation: a file's output is in the final directory with the data it wrote, whatever later files do, unless a later file writes the same name |
| Batch.RunLoop | convertImages.js:61-104 | The imperative loop, applying each file's writes as it goes, ends with the same directory and outcomes as the fold |
| PropertyKeys.ArrayIndexIsPrintedNumber | convertFonts.js:156 | A key counts as an array index exactly when it is the printed form of a number from 0 to 2^32 - 2 |
| PropertyKeys.IndexValueInjective | convertFonts.js:156 | Two array-index keys with the same numeric value are the same key |
| PropertyKeys.IsArrayIndex | convertFonts.js:156 | Definition of an array-index key: a canonical decimal numeral, with no sign and no leading zero, not above 2^32 - 2. These are the keys `Object.keys` lists first |
| PropertyKeys.InheritedKeys | convertFonts.js:145-149 | Definition: the members of `Object.prototype` in Node. Reading one from a fresh `{}` gives a truthy value, so no array is created and the `push` throws |
| PropertyKeys.SortBy | convertFonts.js:156 | The index keys are put in ascending order, keeping exactly the same keys and the same length |
| PropertyKeys.InsertByPermutes | convertFonts.js:156 | Inserting a key into an ascending list adds exactly one occurrence of it and changes no other key's count |
| PropertyKeys.SortByPermutes | convertFonts.js:156 | Sorting the index keys is a permutation: every key occurs as often as before, duplicates included |
| PropertyKeys.OwnKeys | convertFonts.js:156 | Definition: `Object.keys` of an ordinary object is its array-index keys in ascending numeric order, then its other keys in insertion order |
| PropertyKeys.OwnKeysListsEachKeyOnce | convertFonts.js:156 | `Object.keys` lists every own key exactly once and nothing else |
| PropertyKeys.OwnKeysSameKeys | convertFonts.js:156 | `Object.keys` lists exactly the keys the object was given |
| PropertyKeys.OwnKeysIndicesFirst | convertFonts.js:156 | All array-index keys come before the other keys, in ascending numeric order |
| PropertyKeys.OwnKeysNamedInInsertionOrder | convertFonts.js:171 | The keys that are not array indices keep the order in which they were added |
| PropertyKeys.OwnKeysOfNamedKeys | convertFonts.js:171 | With no array-index key, `Object.keys` is exactly the insertion order |
| FontNames.GetFontInfo | convertFonts.js:23-55 | The function is total. The family is the longest '-'-free prefix of the base name. With no second token the font is 400 normal. The style is italic exactly when the lower-cased second token contains "italic". The weight is always one of 100-700 or 900 |
| FontNames.WeightOf | convertFonts.js:36-44 | Definition: the first matching substring test wins, in the script's order, with "normal" tested by equality and 400 when nothing matches |
| FontNames.StyleOf | convertFonts.js:47 | Definition: italic exactly when the token contains "italic", decided apart from the weight |
| FontNames.Modifier | convertFonts.js:26-34 | There is a second token exactly when the base name contains '-', and that token holds no '-' |
| FontNames.InfoOfBase | convertFonts.js:25-48 | Definition: the family is the first token; with no second token the font is 400 normal, otherwise the lower-cased second token decides weight and style |
| FontNames.FamilyIsFirstToken | convertFonts.js:26-28 | The first token is a '-'-free prefix of the base name, followed by a '-' when it is not the whole name |
| FontNames.ExtraBoldContainsBold | convertFonts.js:42-43 | Every token containing "extrabold" or "ultrabold" contains "bold" |
| FontNames.WeightNever800 | convertFonts.js:36-44 | No token is ever classified 800, because the "bold" test (700) shadows the "extrabold"/"ultrabold" test |
| FontNames.MissingChar | convertFonts.js:36-47 | A keyword is not contained in a token that lacks one of its characters |
| FontNames.SplitFamilyModifier | convertFonts.js:26-34 | In `family-modifier…` the first two tokens are the family and the modifier |
| FontNames.LaterTokensIgnored | convertFonts.js:33-47 | Anything after a second '-' has no effect on the classification |
| FontNames.TtfSuffixStripped | convertFonts.js:25 | A name `base.ttf` is classified as its base name |
| FontNames.InfoOfFamilyModifier | convertFonts.js:28-47 | A base name `family-modifier` gets that family, and the weight and style of the lower-cased modifier |
| FontNameExamples.SemiBoldIs600 | convertFonts.js:36-41 | "semibold" passes the 100-500 tests untouched and is 600 normal |
| FontNameExamples.ExtraBoldIs700 | convertFonts.js:36-43 | "extrabold" is 700 normal, not 800 |
| FontNameExamples.ThinItalicIs100Italic | convertFonts.js:36-47 | "thinitalic" is 100 and italic |
| FontNameExamples.FamilyModifierFile | convertFonts.js:23-55 | A file `family-modifier.ttf` gets that family, and the weight and style of its lower-cased modifier |
| FontNameExamples.SemiBoldExample | convertFonts.js:23-55 | "Roboto-SemiBold.ttf" is Roboto, 600, normal |
| FontNameExamples.ExtraBoldExample | convertFonts.js:23-55 | "Inter-ExtraBold.ttf" is Inter, 700, normal |
| FontNameExamples.ThinItalicExample | convertFonts.js:23-55 | "Inter-ThinItalic.ttf" is Inter, 100, italic |
| FontGroups.OfFamily | convertFonts.js:144-150 | A family's fonts are exactly the collected fonts of that family |
| FontGroups.FirstIndex | convertFonts.js:144-150 | The position found holds a font of the family, and no earlier font has that family |
| FontGroups.GroupByFamily | convertFonts.js:142-150 | Grouping throws exactly when some family is a name a fresh `{}` already answers. Otherwise each key is listed once, the listed keys are exactly those holding arrays, and none is inherited |
| FontGroups.AddFont | convertFonts.js:144-149 | Definition of one step of the grouping: an own key gets the font appended, an inherited name throws, and a new family becomes a new key holding the font |
| FontGroups.GroupKeysAreFamilies | convertFonts.js:144-150 | The keys holding arrays are exactly the families that occur |
| FontGroups.HasFamilyOfLast | convertFonts.js:143-149 | A family occurs in the collected fonts exactly when it occurs before the last font or is the last font's family |
| FontGroups.OfAbsentFamily | convertFonts.js:144-150 | A family that does not occur has no fonts |
| FontGroups.GroupsHoldFamilies | convertFonts.js:144-150 | Each key's array is exactly that family's fonts, in collection order |
| FontGroups.GroupsInFirstSeenOrder | convertFonts.js:144-150 | Every key is a family that occurs, and the keys are added in the order their families first occur |
| FontManifest.BuildManifest | convertFonts.js:142-171 | Building the face and family lists throws exactly when grouping throws |
| FontManifest.Flatten | convertFonts.js:156-157 | Definition: the arrays held by the keys, one after another, in key order |
| FontManifest.OfFamilyConcat | convertFonts.js:156-167 | Selecting one family's fonts from two lists gives the two selections one after the other |
| FontManifest.OfFamilyOfFlatten | convertFonts.js:156-167 | Selecting one family from the per-family arrays laid end to end gives that family's array, or nothing if the family is not a key |
| FontManifest.ManifestFamilies | convertFonts.js:171-174 | The variable list names each family that occurs exactly once, and nothing else |
| FontManifest.ManifestKeepsEveryFont | convertFonts.js:156-167 | For every family, the faces of that family are exactly its collected fonts in collection order |
| FontManifest.FlattenOfFamilies | convertFonts.js:156-157 | Reading back arrays that each hold one family's fonts yields those families' fonts family after family |
| FontManifest.ManifestGroupedByFamily | convertFonts.js:156-167 | The `@font-face` rules are the collected fonts regrouped family by family, in the order the variables list the families, so no two families' rules interleave |
| FontManifest.GroupsHomogeneous | convertFonts.js:143-149 | Every key `Object.keys` lists holds an array, and each array holds fonts of that key's family only |
| FontManifest.CountWithinFamily | convertFonts.js:156-167 | A font occurs as often among its family's fonts as among all fonts |
| FontManifest.ManifestIsPermutation | convertFonts.js:156-167 | The `@font-face` rules are a permutation of the collected fonts: none is lost or repeated |
| FontManifest.ManifestFamiliesInFirstSeenOrder | convertFonts.js:156-157 | When no family name is an array index, families appear in the order of their first font |
| FontManifest.GroupKeysNamed | convertFonts.js:143-147 | When no family name is an array index, no key of the grouping object is one |
| FontManifest.ManifestIndexFamiliesFirst | convertFonts.js:156-157 | Families whose names are array indices come first, in ascending numeric order, whatever the collection order |
| FontManifest.FaceRuleNamesFiles | convertFonts.js:158-165 | A font's rule contains the WOFF2 source line and then the WOFF source line for its file name |
| FontManifest.FaceRule | convertFonts.js:158-165 | Definition of one `@font-face` block: the family, the .woff2 and .woff URLs of the file name, the weight, the style and `font-display: swap` |
| FontManifest.VariableLine | convertFonts.js:172-173 | Definition of one variable line: `$font-` and the lower-cased family, then the family and `sans-serif` |
| FontManifest.RenderManifest | convertFonts.js:153-174 | Definition of the whole text: the header, every face's block, the variables header and every family's line |
| FontManifest.GenerateFontsScss | convertFonts.js:138-179 | Generating the style sheet throws exactly when some family is an inherited name |
| FontManifest.EveryFontListed | convertFonts.js:156-174 | Every collected font is among the faces, and its family is among the families |
| FontManifest.GeneratedFileDeclaresEveryFont | convertFonts.js:153-167 | The generated text contains the full `@font-face` rule of every collected font |
| FontManifest.GeneratedFileNamesEveryFamily | convertFonts.js:170-174 | The generated text contains the `$font-…` variable line of every collected font's family |
| FontConvert.FontFiles | convertFonts.js:70-73 | A font is selected exactly when it is listed and its lower-cased name ends in ".ttf" |
| FontConvert.IsTtfName | convertFonts.js:72 | Definition of the selection test: the lower-cased name ends with ".ttf" |
| FontConvert.OutputBase | convertFonts.js:92 | Definition: `path.basename` of the full path with suffix ".ttf", compared case-sensitively |
| FontConvert.WoffName | convertFonts.js:110 | Definition: the output base followed by ".woff" |
| FontConvert.Woff2Name | convertFonts.js:117 | Definition: the output base followed by ".woff2" |
| FontConvert.EntryFor | convertFonts.js:93-101 | Definition of the collected entry: the name's classification and its output base |
| FontConvert.SheetOf | convertFonts.js:130-131 | The style sheet is written exactly when generation does not throw, with the text `generateFontsSCSS` produces from the entries; it throws exactly when some family is an inherited name |
| FontConvert.FontFilesExample | convertFonts.js:70-73 | ["a.ttf", "b.otf", "c.TTF"] selects ["a.ttf", "c.TTF"] |
| FontConvert.ConvertFile | convertFonts.js:103-126 | The names written are a prefix of the WOFF name, then the WOFF2 name. The font converted exactly when both were written. Nothing is written when the read or the WOFF encoding fails. The WOFF2 encoding fails exactly when only the WOFF file was written. Each file holds its encoder's output for the font's bytes |
| FontConvert.ConvertFonts | convertFonts.js:58-135 | The run stops exactly when the directory is missing, cannot be listed, or has no font. Otherwise every selected font gets its outcome and its collected entry, in listing order. The output directory is the old one with every font's writes performed in listing order. The style sheet is the one generated from all the collected entries, and it fails exactly when some family is an inherited name |
| FontConvert.FontRunFrame | convertFonts.js:90-127 | A name that is neither the .woff nor the .woff2 output of any selected font is present after the run exactly when it was present before, with the same contents: no other names are written |
| FontConvert.WoffNeverWoff2 | convertFonts.js:109-119 | A WOFF output name is never a WOFF2 output name |
| FontConvert.OutputBaseInjective | convertFonts.js:92 | Different fonts spelled `stem.ttf` with a non-empty stem have different output bases |
| FontConvert.SharedOutputs | convertFonts.js:72-92 | "a.TTF" and "a.TTF.ttf" are both selected and write the same two files |
| FontConvert.WrittenSheetDeclaresFont | convertFonts.js:98-131 | A written style sheet declares every selected font, with `url(...)`s for its output names, whatever became of its conversion |
| FontConvert.FailedFontStillDeclared | convertFonts.js:98-131 | When no family is an inherited name, the style sheet is written and declares every selected font, including those that failed to convert |
| FontConvert.ConvertedWrites | convertFonts.js:103-119 | A converted font leaves each of its two output names holding that encoder's output |
| FontConvert.DistinctBasesDistinctWrites | convertFonts.js:109-119 | A font never writes the output names of a font with another output base |
| FontConvert.ConvertedFontIsServed | convertFonts.js:90-131 | A converted font whose output base no later font shares is in the output directory in both formats, holding the encoders' output. A written style sheet points at those names |
| FontConvert.TidyBasesDistinct | convertFonts.js:92 | In a listing without repeats whose fonts are all spelled `stem.ttf`, distinct fonts have distinct output bases |
| FontConvert.TidyFontsAreServed | convertFonts.js:90-127 | In such a listing, every converted font is served in both formats |
| FontConvert.RerunChangesNothing | convertFonts.js:58-135 | Running the script again over its own output gives the same outcome and the same output directory |
| ImageConvert.ImageFiles | convertImages.js:41-47 | An image is selected exactly when it is listed and its lower-cased extension is .jpg, .jpeg, .png, .gif or .svg |
| ImageConvert.IsImageName | convertImages.js:44-45 | Definition of the selection test: the lower-cased extension is one of the five |
| ImageConvert.KindOf | convertImages.js:67-98 | Definition of the dispatch on the lower-cased extension: .jpg and .jpeg are JPEG, then PNG, SVG and GIF |
| ImageConvert.WebpName | convertImages.js:63-66 | Definition: the name without its extension, followed by ".webp" |
| ImageConvert.OutputsFor | convertImages.js:72-98 | Definition of each kind's outputs in write order: JPEG and PNG write the copy then the WebP file, SVG and GIF the copy only |
| ImageConvert.OptimiserOf | convertImages.js:72-93 | Definition of the dispatch to an optimiser: mozjpeg for JPEG, pngquant for PNG, svgo for SVG. A GIF has none |
| ImageConvert.DispatchCoversSelection | convertImages.js:43-98 | An entry takes a branch of the dispatch exactly when the filter selects it, and then it has at least one output |
| ImageConvert.ProcessImage | convertImages.js:71-103 | The names written are a prefix of the image's outputs, and it is processed exactly when all were written. When the read or the optimising fails nothing is written, a GIF included. A GIF is copied byte for byte. The copy holds the optimiser's output. The WebP file is encoded from the source bytes. A WebP failure is reported only when the encoder threw, and then the optimised copy alone is written; the statuses being exhaustive, a successful encoding is always written |
| ImageConvert.SuccessfulWebpWritten | convertImages.js:72-89 | A JPEG or PNG whose optimiser and WebP encoder both succeed is processed and gets both files: the optimised copy under its own name, then the encoding under its WebP name |
| ImageConvert.ProcessImages | convertImages.js:27-107 | The run stops exactly when the directory is missing, cannot be listed, or has no image. Otherwise every selected image gets its own outcome, in listing order, and the output directory is the old one with every image's writes performed in listing order |
| ImageConvert.ImageRunFrame | convertImages.js:61-104 | A name that is no output of any selected image is present after the run exactly when it was present before, with the same contents: no other names are written |
| ImageConvert.ExtNameOfWebp | convertImages.js:80 | The extension of a WebP output name is ".webp", or none when the base name is empty |
| ImageConvert.WebpNeverImage | convertImages.js:87-89 | A WebP output name is never selected as an image |
| ImageConvert.WritesOnlyOutputs | convertImages.js:71-103 | An image writes none but its own output names |
| ImageConvert.OutputsDistinct | convertImages.js:75-80 | An image's optimised copy and its WebP file have different names |
| ImageConvert.ProcessedWrites | convertImages.js:71-103 | A processed image leaves each of its outputs holding its own write |
| ImageConvert.ProcessedImageIsServed | convertImages.js:61-104 | Each output of a processed image is in the output directory holding what that image wrote under it, unless a later image writes the same name |
| ImageConvert.OptimisedWrite | convertImages.js:73-96 | An image's first write is its optimised copy, under its own name, and no later write of the image replaces it |
| ImageConvert.OtherImageSkipsName | convertImages.js:61-104 | An image never writes under another selected image's name |
| ImageConvert.OptimisedCopyServed | convertImages.js:61-104 | In a listing without repeats, an image whose copy was written keeps it in the output directory, even if its WebP encoding failed |
| ImageConvert.LastWriteOfDistinct | convertImages.js:71-103 | In at most two writes to different names, each name holds its own write |
| ImageConvert.RerunChangesNothing | convertImages.js:27-107 | Running the script again over its own output gives the same outcomes and the same output directory |
| ImageConvert.UpperCaseJpegExample | convertImages.js:62-81 | "A.JPG" is a JPEG, optimised as "A.JPG" and encoded to "A.webp" |
| ImageConvert.DotFileExample | convertImages.js:44-45 | ".png" has no extension and is not selected |
| ImageConvert.SharedWebpExample | convertImages.js:63-90 | "logo.jpg" and "logo.png" both write "logo.webp", so the later one overwrites the other |

## Left out

- Case-insensitive tests use ASCII-only lower-casing. `toLowerCase` folds every Unicode letter.
- The file system's own failures are left out: a failed write, a failed copy, or a failed `ensureDirSync`. Every write succeeds. A failed read is modelled as a listed name with no entry in `files`.
- Console logging is left out. It has no effect on the files.
- The `await`s are modelled as the sequential steps they are. Nothing runs concurrently.
- The encoders and optimisers are parameters, each a deterministic function from bytes to bytes or a throw. Their algorithms and their fixed options are out of scope: mozjpeg quality 80 progressive, pngquant quality 0.6-0.8 speed 1, the svgo plugin list, WebP quality 80. `sharp` reads the input path itself, and it is modelled as encoding the same source bytes.
- The directory paths (`path.resolve`, `path.join`) and the fixed location of `fonts.scss` are left out. Input and output directories are separate maps keyed by entry name. Names never contain '/'. Each input directory is a sub-directory of its output directory (convertFonts.js:13-14, convertImages.js:17-18). But no output name can equal that sub-directory's name: the outputs are `.woff` and `.woff2` names, selected image names and `.webp` names. So modelling the two directories as disjoint maps loses nothing.
- An uncaught throw from `generateFontsSCSS` ends the font script after the loop, with every conversion already written. It is modelled as a run whose style sheet outcome is `GenerationThrew`. The process exit status is not modelled.
- The bundler configuration (vite.config.js) is declarative data for an external tool and is not part of this model.
- FontConvert.ConvertedFontIsServed: for a general listing, "a converted font is served" holds only when no later font shares its output base. "a.TTF" and "a.TTF.ttf" share one. TidyFontsAreServed states the unconditional form for listings spelled `stem.ttf`.
- ImageConvert.ProcessedImageIsServed: "a processed image is served" needs the same proviso. "logo.jpg" and "logo.png" share "logo.webp". OptimisedCopyServed states the unconditional form for the optimised copy.

## Behaviour worth knowing

- "ExtraBold" and "UltraBold" come out as 700. The "bold" test at convertFonts.js:42 comes before the 800 branch at line 43, so that branch never runs (`FontNames.WeightNever800`, `FontNameExamples.ExtraBoldExample`).
- The font's entry is pushed at convertFonts.js:98-101, before its `try`. A font that fails to convert is therefore still declared in the style sheet, with `url(...)`s for files that were never written (`FontConvert.FailedFontStillDeclared`).
- "normal" is recognised only as the whole token (`=== 'normal'`, convertFonts.js:39). Every other keyword is a substring test.
- The families are visited in `Object.keys` order (convertFonts.js:156 and 171). Families named like array indices come first, in numeric order (`FontManifest.ManifestIndexFamiliesFirst`). The other families follow in the order their first font was collected. A family named like a member of `Object.prototype`, such as "constructor", makes the grouping at convertFonts.js:144-150 throw.
- When the optimiser of a JPEG or PNG throws, the WebP encoding is never attempted, because both run in one `try` (convertImages.js:71-103). A failed WebP encoding leaves the optimised copy in place.
- The listing filter at convertFonts.js:72 lower-cases the whole name, but `path.basename(…, '.ttf')` at line 92 strips the suffix only when it is spelled ".ttf" exactly. "Font.TTF" therefore produces "Font.TTF.woff" and "Font.TTF.woff2", and the style sheet points at those names.

=== FILE: batch.dfy ===
/** The shape both scripts share: visit every selected file once, in listing
    order; each visit performs its own writes and ends in a status, and a
    failure is caught at the level of that one file (`try`/`catch` around the
    loop body), so the loop always goes on to the next file. */
module Batch {
  import opened Common
  import opened Files

  /** What processing one file did: the writes it performed, in order, and how
      it ended. */
  datatype FileRun<S> = FileRun(writes: seq<Write>, status: S)

  /** What the whole loop did: every file's writes, in order, and one status per file. */
  datatype BatchRun<S> = BatchRun(writes: seq<Write>, statuses: seq<S>)

  /** The per-file loop as a fold over the selected names. */
  function RunAll<S>(names: seq<string>, step: string -> FileRun<S>): (r: BatchRun<S>)
    ensures |r.statuses| == |names|
    ensures forall i :: 0 <= i < |names| ==> r.statuses[i] == step(names[i]).status
    ensures forall w :: w in r.writes ==> exists i :: 0 <= i < |names| && w in step(names[i]).writes
    decreases |names|
  {
    if names == [] then BatchRun([], [])
    else
      var prev := RunAll(names[..|names| - 1], step);
      var last := step(names[|names| - 1]);
      BatchRun(prev.writes + last.writes, prev.statuses + [last.status])
  }

  /** Running over two consecutive runs of names performs the first run's
      writes and then the second's. */
  lemma {:induction false} RunAllConcat<S>(a: seq<string>, b: seq<string>, step: string -> FileRun<S>)
    ensures RunAll(a + b, step).writes == RunAll(a, step).writes + RunAll(b, step).writes
    decreases |b|
  {
    if b == [] {
      assert a + b == a;
    } else {
      var b' := b[..|b| - 1];
      assert (a + b)[..|a + b| - 1] == a + b';
      assert (a + b)[|a + b| - 1] == b[|b| - 1];
      RunAllConcat(a, b', step);
    }
  }

  /** If none of the files write `name`, the loop does not write it. */
  lemma {:induction false} RunAllNotWritten<S>(names: seq<string>, step: string -> FileRun<S>, name: string)
    requires forall j :: 0 <= j < |names| ==> name !in WrittenNames(step(names[j]).writes)
    ensures LastWrite(RunAll(names, step).writes, name).None?
  {
    var ws := RunAll(names, step).writes;
    forall k | 0 <= k < |ws|
      ensures ws[k].name != name
    {
      assert ws[k] in ws;
      var j :| 0 <= j < |names| && ws[k] in step(names[j]).writes;
      var fw := step(names[j]).writes;
      var m :| 0 <= m < |fw| && fw[m] == ws[k];
      assert WrittenNames(fw)[m] == ws[k].name;
    }
    LastWriteFound(ws, name);
  }

  /** Per-file isolation: what a file wrote to `name` is what the output
      directory holds at the end, whatever the earlier files did and however
      the later files ended, as long as no later file writes that same name. */
  lemma OutputSurvivesLaterFiles<S>(d: Dir, names: seq<string>, step: string -> FileRun<S>, i: int, name: string)
    requires 0 <= i < |names|
    requires LastWrite(step(names[i]).writes, name).Some?
    requires forall j :: i < j < |names| ==> name !in WrittenNames(step(names[j]).writes)
    ensures name in Apply(d, RunAll(names, step).writes)
    ensures Apply(d, RunAll(names, step).writes)[name] == LastWrite(step(names[i]).writes, name).value
  {
    var before := names[..i];
    var after := names[i + 1..];
    assert names == (before + [names[i]]) + after;
    RunAllConcat(before + [names[i]], after, step);
    assert (before + [names[i]])[..i] == before;
    var upTo := RunAll(before + [names[i]], step).writes;
    assert upTo == RunAll(before, step).writes + step(names[i]).writes;
    forall j | 0 <= j < |after|
      ensures name !in WrittenNames(step(after[j]).writes)
    {
      assert after[j] == names[i + 1 + j];
    }
    RunAllNotWritten(after, step, name);
    LastWriteConcat(upTo, RunAll(after, step).writes, name);
    LastWriteConcat(RunAll(before, step).writes, step(names[i]).writes, name);
    ApplyLookup(d, RunAll(names, step).writes, name);
  }

  /** The loop as the scripts run it: one file at a time, each write applied to
      the output directory as it happens. */
  method RunLoop<S>(d: Dir, names: seq<string>, step: string -> FileRun<S>) returns (out: Dir, statuses: seq<S>)
    ensures out == Apply(d, RunAll(names, step).writes)
    ensures statuses == RunAll(names, step).statuses
  {
    out := d;
    statuses := [];
    var i := 0;
    while i < |names|
      invariant 0 <= i <= |names|
      invariant out == Apply(d, RunAll(names[..i], step).writes)
      invariant statuses == RunAll(names[..i], step).statuses
    {
      var run := step(names[i]);
      ghost var start := out;
      var k := 0;
      while k < |run.writes|
        invariant 0 <= k <= |run.writes|
        invariant out == Apply(start, run.writes[..k])
      {
        var w := run.writes[k];
        ApplyConcat(start, run.writes[..k], [w]);
        assert run.writes[..k + 1] == run.writes[..k] + [w];
        out := out[w.name := w.data];
        k := k + 1;
      }
      assert run.writes[..k] == run.writes;
      assert names[..i + 1][..i] == names[..i];
      ApplyConcat(d, RunAll(names[..i], step).writes, run.writes);
      statuses := statuses + [run.status];
      i := i + 1;
    }
    assert names[..i] == names;
  }
}

=== FILE: common.dfy ===
/** Small generic vocabulary shared by the font and image models: an optional
    value, duplicate-freedom, and the order-preserving filter that both scripts
    apply to a directory listing (`Array.prototype.filter`). */
module Common {

  datatype Option<+T> = None | Some(value: T)

  /** No element occurs twice. */
  ghost predicate NoDup<T>(s: seq<T>) {
    forall i, j :: 0 <= i < j < |s| ==> s[i] != s[j]
  }

  /** Putting a new element in front keeps a sequence duplicate-free. */
  lemma NoDupCons<T>(x: T, s: seq<T>)
    requires NoDup(s) && x !in s
    ensures NoDup([x] + s)
  {
    var r := [x] + s;
    forall i, j | 0 <= i < j < |r|
      ensures r[i] != r[j]
    {
      assert r[j] == s[j - 1];
      if i > 0 {
        assert r[i] == s[i - 1];
      }
    }
  }

  /** The set of elements of a sequence. */
  function Elems<T>(s: seq<T>): set<T> {
    set x | x in s
  }

  /** `s.filter(keep)`: the elements satisfying `keep`, in their original order. */
  function Filter<T(!new)>(s: seq<T>, keep: T -> bool): (r: seq<T>)
    ensures |r| <= |s|
    ensures forall x :: x in r <==> x in s && keep(x)
    ensures forall i :: 0 <= i < |r| ==> keep(r[i])
  {
    if s == [] then [] else (if keep(s[0]) then [s[0]] else []) + Filter(s[1..], keep)
  }

  /** Filtering commutes with concatenation: no element moves across the seam,
      so the relative order of the kept elements is the listing's order. */
  lemma {:induction false} FilterAppend<T(!new)>(a: seq<T>, b: seq<T>, keep: T -> bool)
    ensures Filter(a + b, keep) == Filter(a, keep) + Filter(b, keep)
  {
    if a == [] {
      assert a + b == b;
    } else {
      assert (a + b)[1..] == a[1..] + b;
      FilterAppend(a[1..], b, keep);
    }
  }

  /** A sequence whose every element is kept is left as it is. */
  lemma {:induction false} FilterKeepsAll<T(!new)>(s: seq<T>, keep: T -> bool)
    requires forall i :: 0 <= i < |s| ==> keep(s[i])
    ensures Filter(s, keep) == s
  {
    if s != [] {
      FilterKeepsAll(s[1..], keep);
    }
  }

  /** A sequence none of whose elements is kept filters to nothing. */
  lemma {:induction false} FilterKeepsNone<T(!new)>(s: seq<T>, keep: T -> bool)
    requires forall i :: 0 <= i < |s| ==> !keep(s[i])
    ensures Filter(s, keep) == []
  {
    if s != [] {
      FilterKeepsNone(s[1..], keep);
    }
  }

  /** Filtering a duplicate-free sequence gives a duplicate-free sequence. */
  lemma {:induction false} FilterNoDup<T(!new)>(s: seq<T>, keep: T -> bool)
    requires NoDup(s)
    ensures NoDup(Filter(s, keep))
  {
    if s != [] {
      FilterNoDup(s[1..], keep);
      var r := Filter(s, keep);
      var rest := Filter(s[1..], keep);
      if keep(s[0]) {
        assert r == [s[0]] + rest;
        assert s[0] !in s[1..];
        assert s[0] !in rest;
        forall i, j | 0 <= i < j < |r|
          ensures r[i] != r[j]
        {
          if i == 0 {
            assert r[j] == rest[j - 1];
          } else {
            assert r[i] == rest[i - 1] && r[j] == rest[j - 1];
          }
        }
      } else {
        assert r == rest;
      }
    }
  }
}

=== FILE: decimal.dfy ===
/** Decimal digit strings: how JavaScript prints a non-negative integer (as in
    `${font.fontWeight}`), and how it reads a digit string back, which decides
    whether a property key is an array index. */
module Decimal {

  predicate IsDigit(c: char) {
    '0' <= c <= '9'
  }

  predicate AllDigits(s: string) {
    forall i :: 0 <= i < |s| ==> IsDigit(s[i])
  }

  function DigitValue(c: char): nat
    requires IsDigit(c)
  {
    c as int - '0' as int
  }

  function DigitChar(d: nat): (c: char)
    requires d < 10
    ensures IsDigit(c) && DigitValue(c) == d
  {
    ('0' as int + d) as char
  }

  /** The number a digit string denotes. */
  function Value(s: string): nat
    requires AllDigits(s)
  {
    if s == [] then 0 else 10 * Value(s[..|s| - 1]) + DigitValue(s[|s| - 1])
  }

  /** The canonical decimal text of `n`: no sign, no leading zero. */
  function Show(n: nat): (s: string)
    ensures |s| >= 1 && AllDigits(s)
    ensures s[0] == '0' ==> |s| == 1
  {
    if n < 10 then [DigitChar(n)] else Show(n / 10) + [DigitChar(n % 10)]
  }

  /** Reading the printed text of a number gives the number back. */
  lemma {:induction false} ValueOfShow(n: nat)
    ensures Value(Show(n)) == n
  {
    if n >= 10 {
      ValueOfShow(n / 10);
      var s := Show(n);
      assert s[..|s| - 1] == Show(n / 10);
    }
  }

  /** A digit string of two or more digits without a leading zero denotes at
      least ten. */
  lemma {:induction false} LongCanonicalValue(s: string)
    requires AllDigits(s) && |s| >= 2 && s[0] != '0'
    ensures Value(s) >= 10
    decreases |s|
  {
    var p := s[..|s| - 1];
    if |p| >= 2 {
      LongCanonicalValue(p);
    } else {
      assert p[0] == s[0];
      assert Value(p) == 10 * Value(p[..0]) + DigitValue(p[0]);
    }
  }

  /** Printing the value of a digit string without a leading zero gives the
      string back: canonical digit strings and numbers correspond one to one. */
  lemma {:induction false} ShowOfValue(s: string)
    requires AllDigits(s) && |s| >= 1 && (s[0] == '0' ==> |s| == 1)
    ensures Show(Value(s)) == s
    decreases |s|
  {
    var p := s[..|s| - 1];
    var d := DigitValue(s[|s| - 1]);
    if |s| == 1 {
      assert Value(s) == d;
      assert s == [DigitChar(d)];
    } else {
      LongCanonicalValue(s);
      assert p[0] == s[0];
      ShowOfValue(p);
      assert Value(s) / 10 == Value(p) && Value(s) % 10 == d;
      assert s == p + [DigitChar(d)];
    }
  }
}

=== FILE: files.dfy ===
/** The file system as the two scripts see it: an input directory that may be
    missing, unreadable, or listed; an output directory as a map from names to
    bytes; writes that overwrite unconditionally; and external codecs as
    functions that either produce bytes or throw. */
module Files {
  import opened Common

  newtype byte = x: int | 0 <= x < 256
  type Bytes = seq<byte>

  /** The outcome of a call that may throw: the produced value, or an exception. */
  datatype Attempt<+T> = Done(value: T) | Threw

  /** An external byte transformer: a font encoder, an image optimiser, a WebP
      encoder. Its fixed quality options are part of the function. */
  type Codec = Bytes -> Attempt<Bytes>

  /** The input directory as found at the start of a run. `names` is the
      listing in `readdirSync` order; `files` holds the bytes of the entries
      that can be read as files (an entry missing from it fails to read). */
  datatype Source =
    | Missing
    | Unlistable
    | Listed(names: seq<string>, files: map<string, Bytes>)

  /** Why a run stopped before processing any file. */
  datatype Halt = SourceMissing | ListingFailed | NothingToProcess

  datatype Write = Write(name: string, data: Bytes)

  /** An output directory. */
  type Dir = map<string, Bytes>

  function WrittenNames(ws: seq<Write>): seq<string> {
    seq(|ws|, i requires 0 <= i < |ws| => ws[i].name)
  }

  /** Performing the writes in order, each one replacing whatever was there. */
  function Apply(d: Dir, ws: seq<Write>): (r: Dir)
    ensures r.Keys == d.Keys + Elems(WrittenNames(ws))
    decreases |ws|
  {
    if ws == [] then d
    else
      var r := Apply(d[ws[0].name := ws[0].data], ws[1..]);
      assert Elems(WrittenNames(ws)) == {ws[0].name} + Elems(WrittenNames(ws[1..])) by {
        assert WrittenNames(ws) == [ws[0].name] + WrittenNames(ws[1..]);
      }
      r
  }

  /** The data of the last write to `name`, if any write targets it. */
  function LastWrite(ws: seq<Write>, name: string): Option<Bytes>
    decreases |ws|
  {
    if ws == [] then None
    else match LastWrite(ws[1..], name)
      case Some(v) => Some(v)
      case None => if ws[0].name == name then Some(ws[0].data) else None
  }

  /** `LastWrite` finds a write exactly when some write targets the name. */
  lemma {:induction false} LastWriteFound(ws: seq<Write>, name: string)
    ensures LastWrite(ws, name).Some? <==> name in WrittenNames(ws)
    decreases |ws|
  {
    if ws != [] {
      LastWriteFound(ws[1..], name);
      assert WrittenNames(ws) == [ws[0].name] + WrittenNames(ws[1..]);
    }
  }

  /** After the writes, a name holds the data of its last write, or what it
      held before when no write targets it. */
  lemma {:induction false} ApplyLookup(d: Dir, ws: seq<Write>, name: string)
    ensures name in Apply(d, ws) <==> name in d || LastWrite(ws, name).Some?
    ensures LastWrite(ws, name).Some? ==> Apply(d, ws)[name] == LastWrite(ws, name).value
    ensures LastWrite(ws, name).None? && name in d ==> Apply(d, ws)[name] == d[name]
    decreases |ws|
  {
    LastWriteFound(ws, name);
    if ws != [] {
      ApplyLookup(d[ws[0].name := ws[0].data], ws[1..], name);
      LastWriteFound(ws[1..], name);
    }
  }

  /** Writes can be performed in two batches. */
  lemma {:induction false} ApplyConcat(d: Dir, a: seq<Write>, b: seq<Write>)
    ensures Apply(d, a + b) == Apply(Apply(d, a), b)
    decreases |a|
  {
    if a != [] {
      assert (a + b)[1..] == a[1..] + b;
      ApplyConcat(d[a[0].name := a[0].data], a[1..], b);
    } else {
      assert a + b == b;
    }
  }

  /** The last write to a name is in the later batch if that batch targets the
      name, and otherwise in the earlier batch. */
  lemma {:induction false} LastWriteConcat(a: seq<Write>, b: seq<Write>, name: string)
    ensures LastWrite(a + b, name) == if LastWrite(b, name).Some? then LastWrite(b, name) else LastWrite(a, name)
    decreases |a|
  {
    if a == [] {
      assert a + b == b;
    } else {
      assert (a + b)[1..] == a[1..] + b;
      LastWriteConcat(a[1..], b, name);
    }
  }

  /** Repeating the same writes changes nothing: performing them twice leaves
      the directory as performing them once does. */
  lemma ApplyTwice(d: Dir, ws: seq<Write>)
    ensures Apply(Apply(d, ws), ws) == Apply(d, ws)
  {
    var once := Apply(d, ws);
    var twice := Apply(once, ws);
    forall name | name in twice
      ensures name in once && twice[name] == once[name]
    {
      ApplyLookup(once, ws, name);
      ApplyLookup(d, ws, name);
    }
  }
}

=== FILE: font_convert.dfy ===
/** `convertFonts`: select the .ttf entries of the input directory, convert
    each to WOFF and WOFF2 in the output directory, collect every selected
    font for the style sheet whether or not its conversion succeeded, and
    generate the style sheet once the loop is over. */
module FontConvert {
  import opened Common
  import opened Text
  import opened Paths
  import opened Files
  import opened Batch
  import opened FontNames
  import opened FontGroups
  import opened FontManifest
  import opened PropertyKeys

  /** The listing filter: the lower-cased name ends with ".ttf". */
  predicate IsTtfName(name: string) {
    EndsWith(Lower(name), ".ttf")
  }

  /** The selected entries, in listing order. */
  function FontFiles(names: seq<string>): (r: seq<string>)
    ensures forall x :: x in r <==> x in names && IsTtfName(x)
    ensures forall i :: 0 <= i < |r| ==> IsTtfName(r[i])
  {
    Filter(names, IsTtfName)
  }

  /** `path.basename(fullPath, '.ttf')`: the name both output files and the
      style sheet's `url(...)`s are built from. The suffix is removed only
      when it is spelled ".ttf" exactly. */
  function OutputBase(name: string): string {
    BasenameOfPath(name, ".ttf")
  }

  function WoffName(name: string): string {
    OutputBase(name) + ".woff"
  }

  function Woff2Name(name: string): string {
    OutputBase(name) + ".woff2"
  }

  /** What the loop collects for a font before trying to convert it. */
  function EntryFor(name: string): FontEntry {
    FontEntry(GetFontInfo(name), OutputBase(name))
  }

  /** How the conversion of one font ended. */
  datatype FontStatus = Converted | ReadFailed | WoffFailed | Woff2Failed

  /** The two encoders (`ttf2woff`, `ttf2woff2`). */
  datatype FontCodecs = FontCodecs(woff: Codec, woff2: Codec)

  /** The `try` block for one font: read it, encode and write WOFF, then
      encode and write WOFF2; the first exception ends the block. A failed
      read or WOFF encoding writes nothing; a failed WOFF2 encoding leaves the
      WOFF file written. */
  function ConvertFile(files: map<string, Bytes>, codecs: FontCodecs, name: string): (r: FileRun<FontStatus>)
    ensures |r.writes| <= 2
    ensures WrittenNames(r.writes) == [WoffName(name), Woff2Name(name)][..|r.writes|]
    ensures r.status == Converted <==> |r.writes| == 2
    ensures r.status == ReadFailed <==> name !in files
    ensures r.status == WoffFailed <==> name in files && codecs.woff(files[name]).Threw?
    ensures |r.writes| >= 1 ==> name in files && codecs.woff(files[name]) == Done(r.writes[0].data)
    ensures |r.writes| == 2 ==> codecs.woff2(files[name]) == Done(r.writes[1].data)
    ensures r.status == Woff2Failed <==> |r.writes| == 1 && codecs.woff2(files[name]).Threw?
  {
    if name !in files then FileRun([], ReadFailed)
    else
      var ttf := files[name];
      match codecs.woff(ttf)
      case Threw => FileRun([], WoffFailed)
      case Done(woff) =>
        var first := Write(WoffName(name), woff);
        match codecs.woff2(ttf)
        case Threw => FileRun([first], Woff2Failed)
        case Done(woff2) => FileRun([first, Write(Woff2Name(name), woff2)], Converted)
  }

  /** The loop body as a step of the shared per-file loop. */
  function FontStep(files: map<string, Bytes>, codecs: FontCodecs): string -> FileRun<FontStatus> {
    name => ConvertFile(files, codecs, name)
  }

  /** What happened to the style sheet: written with this text, or the
      generator threw (after every font had been processed). */
  datatype SheetOutcome = SheetWritten(text: string) | GenerationThrew

  /** A run of the script: stopped before the loop, or the loop ran over the
      selected fonts and the style sheet was generated. */
  datatype FontRun =
    | Halted(reason: Halt)
    | Ran(target: Dir, statuses: seq<FontStatus>, entries: seq<FontEntry>, sheet: SheetOutcome)

  /** The collected entries, one per selected font, in listing order. */
  function EntriesOf(fonts: seq<string>): (es: seq<FontEntry>)
    ensures |es| == |fonts|
    ensures forall i :: 0 <= i < |fonts| ==> es[i] == EntryFor(fonts[i])
  {
    seq(|fonts|, i requires 0 <= i < |fonts| => EntryFor(fonts[i]))
  }

  /** The style sheet generated from the collected entries. */
  function SheetOf(es: seq<FontEntry>): (s: SheetOutcome)
    ensures s.GenerationThrew? <==> SomeInherited(es)
    ensures s.SheetWritten? ==> GenerateFontsScss(es) == Done(s.text)
  {
    match GenerateFontsScss(es)
    case Threw => GenerationThrew
    case Done(text) => SheetWritten(text)
  }

  /** `convertFonts()` on the input directory `src` and the output directory
      `target`. It stops when the input directory is missing, cannot be
      listed, or holds no .ttf entry; otherwise every selected font gets one
      status and one collected entry, in listing order, failures included, and
      the style sheet is generated from all the entries. */
  function ConvertFonts(src: Source, target: Dir, codecs: FontCodecs): (r: FontRun)
    ensures src.Missing? <==> r == Halted(SourceMissing)
    ensures src.Unlistable? <==> r == Halted(ListingFailed)
    ensures r == Halted(NothingToProcess) <==> src.Listed? && FontFiles(src.names) == []
    ensures r.Ran? ==> src.Listed?
    ensures r.Ran? ==> |r.statuses| == |FontFiles(src.names)| && |r.entries| == |FontFiles(src.names)|
    ensures r.Ran? ==> forall i :: 0 <= i < |r.entries| ==>
      && r.entries[i] == EntryFor(FontFiles(src.names)[i])
      && r.statuses[i] == ConvertFile(src.files, codecs, FontFiles(src.names)[i]).status
    ensures r.Ran? ==> (r.sheet.GenerationThrew? <==> SomeInherited(r.entries))
    ensures r.Ran? ==> r.sheet == SheetOf(r.entries)
    ensures r.Ran? ==> r.target == Apply(target, RunAll(FontFiles(src.names), FontStep(src.files, codecs)).writes)
  {
    match src
    case Missing => Halted(SourceMissing)
    case Unlistable => Halted(ListingFailed)
    case Listed(names, files) =>
      var fonts := FontFiles(names);
      if fonts == [] then Halted(NothingToProcess)
      else
        var run := RunAll(fonts, FontStep(files, codecs));
        var entries := EntriesOf(fonts);
        Ran(Apply(target, run.writes), run.statuses, entries, SheetOf(entries))
  }

  /** A name that is neither output of any selected font is left as it was:
      present after the run exactly when it was present before, with the
      same contents. */
  lemma FontRunFrame(src: Source, target: Dir, codecs: FontCodecs, n: string)
    requires src.Listed? && FontFiles(src.names) != []
    requires forall f :: f in FontFiles(src.names) ==> n != WoffName(f) && n != Woff2Name(f)
    ensures var r := ConvertFonts(src, target, codecs);
      && r.Ran?
      && (n in r.target <==> n in target)
      && (n in target ==> r.target[n] == target[n])
  {
    var fonts := FontFiles(src.names);
    var step := FontStep(src.files, codecs);
    forall j | 0 <= j < |fonts|
      ensures n !in WrittenNames(step(fonts[j]).writes)
    {
      assert fonts[j] in fonts;
      var ws := ConvertFile(src.files, codecs, fonts[j]).writes;
      assert WrittenNames(ws) == [WoffName(fonts[j]), Woff2Name(fonts[j])][..|ws|];
    }
    RunAllNotWritten(fonts, step, n);
    ApplyLookup(target, RunAll(fonts, step).writes, n);
  }

  /** Output names of the two formats never coincide. */
  lemma WoffNeverWoff2(a: string, b: string)
    ensures WoffName(a) != Woff2Name(b)
  {
    var x, y := WoffName(a), Woff2Name(b);
    assert x[|x| - 1] == 'f' && y[|y| - 1] == '2';
  }

  /** Inputs spelled with a lower-case ".ttf" after a non-empty stem have
      distinct outputs when their names differ. */
  lemma OutputBaseInjective(a: string, b: string)
    requires EndsWith(a, ".ttf") && |a| > 4
    requires EndsWith(b, ".ttf") && |b| > 4
    ensures a != b ==> OutputBase(a) != OutputBase(b)
  {
  }

  /** Without that spelling, two entries of one listing can share their
      outputs: "a.TTF" keeps its suffix, and "a.TTF.ttf" loses only the
      lower-case one, so the second overwrites the first's files. */
  lemma SharedOutputs(a: string, b: string)
    requires a == "a.TTF" && b == "a.TTF.ttf"
    ensures IsTtfName(a) && IsTtfName(b) && a != b
    ensures WoffName(a) == WoffName(b) && Woff2Name(a) == Woff2Name(b)
  {
    assert !EndsWith(a, ".ttf") by {
      assert a[|a| - 4..] != ".ttf" by { assert a[|a| - 3] == 'T'; }
    }
    assert b[|b| - 4..] == ".ttf";
    assert b[..|b| - 4] == a;
    assert Lower(a)[|a| - 4..] == ".ttf";
    assert |a| != |b|;
  }

  /** The two .ttf names of the listing example are selected. */
  lemma TtfExampleSelected(name: string)
    requires name == "a.ttf" || name == "c.TTF"
    ensures IsTtfName(name)
  {
    assert Lower(name)[1..] == ".ttf";
  }

  /** The .otf name of the listing example is not. */
  lemma OtfExampleSkipped(name: string)
    requires name == "b.otf"
    ensures !IsTtfName(name)
  {
    assert Lower(name)[1..][1] == 'o';
  }

  /** The listing filter ignores case: ".TTF" is selected, ".otf" is not. */
  lemma FontFilesExample(names: seq<string>)
    requires names == ["a.ttf", "b.otf", "c.TTF"]
    ensures FontFiles(names) == ["a.ttf", "c.TTF"]
  {
    TtfExampleSelected(names[0]);
    OtfExampleSkipped(names[1]);
    TtfExampleSelected(names[2]);
    var t1 := names[1..];
    var t2 := t1[1..];
    assert t2 == [names[2]] && t2[1..] == [];
    assert Filter(t2, IsTtfName) == [names[2]];
    assert Filter(t1, IsTtfName) == [names[2]];
  }

  /** A written style sheet declares every selected font, whatever became of
      its conversion, with `url(...)`s naming its output files. */
  lemma WrittenSheetDeclaresFont(src: Source, target: Dir, codecs: FontCodecs, i: int)
    requires src.Listed? && 0 <= i < |FontFiles(src.names)|
    ensures var r := ConvertFonts(src, target, codecs);
      var name := FontFiles(src.names)[i];
      && r.Ran?
      && (r.sheet.SheetWritten? ==>
            && Contains(r.sheet.text, FaceRule(GetFontInfo(name).family, EntryFor(name)))
            && Contains(r.sheet.text, SourceLines(OutputBase(name))))
  {
    var r := ConvertFonts(src, target, codecs);
    var name := FontFiles(src.names)[i];
    if r.sheet.SheetWritten? {
      assert GenerateFontsScss(r.entries) == Done(r.sheet.text);
      assert r.entries[i] in r.entries;
      GeneratedFileDeclaresEveryFont(r.entries, r.entries[i]);
      FaceRuleNamesFiles(GetFontInfo(name).family, EntryFor(name));
      ContainsTransitive(r.sheet.text, FaceRule(GetFontInfo(name).family, EntryFor(name)), SourceLines(OutputBase(name)));
    }
  }

  /** When no family is a name a fresh object already answers, the style sheet
      is written, and it declares every selected font, including those that
      failed to convert, with `url(...)`s naming files that were not produced. */
  lemma FailedFontStillDeclared(src: Source, target: Dir, codecs: FontCodecs, i: int)
    requires src.Listed? && 0 <= i < |FontFiles(src.names)|
    requires var fonts := FontFiles(src.names);
      forall j :: 0 <= j < |fonts| ==> GetFontInfo(fonts[j]).family !in InheritedKeys
    ensures var r := ConvertFonts(src, target, codecs);
      var name := FontFiles(src.names)[i];
      && r.Ran? && r.sheet.SheetWritten?
      && Contains(r.sheet.text, FaceRule(GetFontInfo(name).family, EntryFor(name)))
      && Contains(r.sheet.text, SourceLines(OutputBase(name)))
  {
    var r := ConvertFonts(src, target, codecs);
    WrittenSheetDeclaresFont(src, target, codecs, i);
    assert !SomeInherited(r.entries) by {
      forall j | 0 <= j < |r.entries|
        ensures r.entries[j].info.family !in InheritedKeys
      {
        assert r.entries[j] == EntryFor(FontFiles(src.names)[j]);
      }
    }
  }

  /** A converted font's own writes leave each output name holding its encoding. */
  lemma ConvertedWrites(files: map<string, Bytes>, codecs: FontCodecs, name: string)
    requires ConvertFile(files, codecs, name).status == Converted
    ensures var ws := ConvertFile(files, codecs, name).writes;
      && name in files
      && LastWrite(ws, WoffName(name)) == Some(codecs.woff(files[name]).value)
      && LastWrite(ws, Woff2Name(name)) == Some(codecs.woff2(files[name]).value)
  {
    var ws := ConvertFile(files, codecs, name).writes;
    WoffNeverWoff2(name, name);
    var tail := ws[1..];
    assert tail[1..] == [];
    assert LastWrite(tail, WoffName(name)) == None;
    assert LastWrite(tail, Woff2Name(name)) == Some(ws[1].data);
  }

  /** Fonts with different output bases write different names. */
  lemma DistinctBasesDistinctWrites(files: map<string, Bytes>, codecs: FontCodecs, name: string, other: string)
    requires OutputBase(other) != OutputBase(name)
    ensures WoffName(name) !in WrittenNames(ConvertFile(files, codecs, other).writes)
    ensures Woff2Name(name) !in WrittenNames(ConvertFile(files, codecs, other).writes)
  {
    WoffNeverWoff2(name, other);
    WoffNeverWoff2(other, name);
    assert (OutputBase(other) + ".woff")[..|OutputBase(other)|] == OutputBase(other);
    assert (OutputBase(name) + ".woff")[..|OutputBase(name)|] == OutputBase(name);
    assert (OutputBase(other) + ".woff2")[..|OutputBase(other)|] == OutputBase(other);
    assert (OutputBase(name) + ".woff2")[..|OutputBase(name)|] == OutputBase(name);
  }

  /** A font that converted is in the output directory in both formats, holding
      the encoders' output for its bytes, provided no later font has the same
      output base; and the style sheet, if written, points at those names. */
  lemma ConvertedFontIsServed(src: Source, target: Dir, codecs: FontCodecs, i: int)
    requires src.Listed? && 0 <= i < |FontFiles(src.names)|
    requires ConvertFile(src.files, codecs, FontFiles(src.names)[i]).status == Converted
    requires var fonts := FontFiles(src.names);
      forall j :: i < j < |fonts| ==> OutputBase(fonts[j]) != OutputBase(fonts[i])
    ensures var r := ConvertFonts(src, target, codecs);
      var name := FontFiles(src.names)[i];
      && r.Ran? && name in src.files
      && WoffName(name) in r.target && Woff2Name(name) in r.target
      && r.target[WoffName(name)] == codecs.woff(src.files[name]).value
      && r.target[Woff2Name(name)] == codecs.woff2(src.files[name]).value
      && (r.sheet.SheetWritten? ==> Contains(r.sheet.text, SourceLines(OutputBase(name))))
  {
    var r := ConvertFonts(src, target, codecs);
    var fonts := FontFiles(src.names);
    var name := fonts[i];
    var step := FontStep(src.files, codecs);
    ConvertedWrites(src.files, codecs, name);
    forall j | i < j < |fonts|
      ensures WoffName(name) !in WrittenNames(step(fonts[j]).writes)
      ensures Woff2Name(name) !in WrittenNames(step(fonts[j]).writes)
    {
      DistinctBasesDistinctWrites(src.files, codecs, name, fonts[j]);
    }
    OutputSurvivesLaterFiles(target, fonts, step, i, WoffName(name));
    OutputSurvivesLaterFiles(target, fonts, step, i, Woff2Name(name));
    WrittenSheetDeclaresFont(src, target, codecs, i);
  }

  /** Running the script a second time, over its own output, changes nothing:
      the encoders are deterministic and every write replaces what was there. */
  lemma RerunChangesNothing(src: Source, target: Dir, codecs: FontCodecs)
    requires src.Listed? && FontFiles(src.names) != []
    ensures var first := ConvertFonts(src, target, codecs);
      first.Ran? && ConvertFonts(src, first.target, codecs) == first
  {
    var fonts := FontFiles(src.names);
    ApplyTwice(target, RunAll(fonts, FontStep(src.files, codecs)).writes);
  }

  /** Every font of the listing is spelled "<stem>.ttf" with a non-empty stem. */
  predicate TidyFontNames(names: seq<string>) {
    forall n :: n in names && IsTtfName(n) ==> EndsWith(n, ".ttf") && |n| > 4
  }

  /** In a listing whose fonts are all spelled "<stem>.ttf", every font that
      converted is served from the output directory in both formats. */
  lemma TidyFontsAreServed(src: Source, target: Dir, codecs: FontCodecs, i: int)
    requires src.Listed? && NoDup(src.names) && TidyFontNames(src.names)
    requires 0 <= i < |FontFiles(src.names)|
    requires ConvertFile(src.files, codecs, FontFiles(src.names)[i]).status == Converted
    ensures var r := ConvertFonts(src, target, codecs);
      var name := FontFiles(src.names)[i];
      && r.Ran? && name in src.files
      && WoffName(name) in r.target && Woff2Name(name) in r.target
      && r.target[WoffName(name)] == codecs.woff(src.files[name]).value
      && r.target[Woff2Name(name)] == codecs.woff2(src.files[name]).value
  {
    TidyBasesDistinct(src.names, i);
    ConvertedFontIsServed(src, target, codecs, i);
  }

  /** Distinct fonts of such a listing have distinct output bases. */
  lemma TidyBasesDistinct(names: seq<string>, i: int)
    requires NoDup(names)
    requires TidyFontNames(names)
    ensures var fonts := FontFiles(names);
      forall j :: 0 <= i < j < |fonts| ==> OutputBase(fonts[j]) != OutputBase(fonts[i])
  {
    var fonts := FontFiles(names);
    FilterNoDup(names, IsTtfName);
    forall j | 0 <= i < j < |fonts|
      ensures OutputBase(fonts[j]) != OutputBase(fonts[i])
    {
      assert fonts[j] in fonts && fonts[i] in fonts;
      OutputBaseInjective(fonts[j], fonts[i]);
    }
  }
}

=== FILE: font_groups.dfy ===
/** The first half of `generateFontsSCSS`: the fonts collected by the
    conversion loop are grouped by family into a plain object, keyed by the
    family name, each key holding that family's fonts in collection order.
    Looking a family up in a fresh `{}` finds the members inherited from
    `Object.prototype`; such a family is never given an array of its own, and
    the following `push` throws. */
module FontGroups {
  import opened Common
  import opened Files
  import opened FontNames
  import opened PropertyKeys

  /** One collected font: what `getFontInfo` read from its name, and the file
      name without ".ttf" that the generated `url(...)`s point at. */
  datatype FontEntry = FontEntry(info: FontInfo, fileName: string)

  /** Some collected font belongs to family `f`. */
  ghost predicate HasFamily(es: seq<FontEntry>, f: string) {
    exists i :: 0 <= i < |es| && es[i].info.family == f
  }

  /** Some collected font's family is a name `{}` already answers. */
  ghost predicate SomeInherited(es: seq<FontEntry>) {
    exists i :: 0 <= i < |es| && es[i].info.family in InheritedKeys
  }

  /** The fonts of family `f`, in collection order. */
  function OfFamily(es: seq<FontEntry>, f: string): (r: seq<FontEntry>)
    ensures |r| <= |es|
    ensures forall e :: e in r <==> e in es && e.info.family == f
    decreases |es|
  {
    if es == [] then []
    else
      var prev := OfFamily(es[..|es| - 1], f);
      var e := es[|es| - 1];
      assert es == es[..|es| - 1] + [e];
      if e.info.family == f then prev + [e] else prev
  }

  /** The position of the first font of family `f`. */
  function FirstIndex(es: seq<FontEntry>, f: string): (k: nat)
    requires HasFamily(es, f)
    ensures k < |es| && es[k].info.family == f
    ensures forall j :: 0 <= j < k ==> es[j].info.family != f
    decreases |es|
  {
    if es[0].info.family == f then 0
    else
      var i :| 0 <= i < |es| && es[i].info.family == f;
      assert es[1..][i - 1] == es[i];
      1 + FirstIndex(es[1..], f)
  }

  /** The grouping object: its own keys in the order they were added, and the
      array each key holds. */
  datatype Groups = Groups(order: seq<string>, fonts: map<string, seq<FontEntry>>)

  /** One step of the `forEach`: `if (!groups[f]) groups[f] = []; groups[f].push(font)`.
      An own key holds a non-empty array, which is truthy; an inherited member
      is truthy too, so no array is created and `push` is not a function on it. */
  function AddFont(g: Groups, e: FontEntry): Attempt<Groups> {
    var f := e.info.family;
    if f in g.fonts then Done(Groups(g.order, g.fonts[f := g.fonts[f] + [e]]))
    else if f in InheritedKeys then Threw
    else Done(Groups(g.order + [f], g.fonts[f := [e]]))
  }

  /** The whole `forEach` over the collected fonts. It throws exactly when
      some family is an inherited member; otherwise the keys are listed once
      each, are exactly the keys holding arrays, and none is inherited. */
  function GroupByFamily(es: seq<FontEntry>): (r: Attempt<Groups>)
    ensures r.Threw? <==> SomeInherited(es)
    ensures r.Done? ==> NoDup(r.value.order)
    ensures r.Done? ==> forall f :: f in r.value.order <==> f in r.value.fonts
    ensures r.Done? ==> forall f :: f in r.value.fonts ==> f !in InheritedKeys
    decreases |es|
  {
    if es == [] then Done(Groups([], map[]))
    else
      var prefix := es[..|es| - 1];
      var e := es[|es| - 1];
      assert forall i :: 0 <= i < |prefix| ==> prefix[i] == es[i];
      match GroupByFamily(prefix)
      case Threw => Threw
      case Done(g) =>
        var r := AddFont(g, e);
        if r.Done? && r.value.order != g.order then
          assert NoDup(r.value.order) by {
            forall i, j | 0 <= i < j < |r.value.order|
              ensures r.value.order[i] != r.value.order[j]
            {
              if j == |g.order| {
                assert r.value.order[i] == g.order[i];
              }
            }
          }
          r
        else r
  }

  /** The keys holding arrays are exactly the families that occur. */
  lemma {:induction false} GroupKeysAreFamilies(es: seq<FontEntry>)
    requires GroupByFamily(es).Done?
    ensures forall f :: f in GroupByFamily(es).value.fonts <==> HasFamily(es, f)
    decreases |es|
  {
    if es != [] {
      var prefix := es[..|es| - 1];
      var e := es[|es| - 1];
      assert forall i :: 0 <= i < |prefix| ==> prefix[i] == es[i];
      GroupKeysAreFamilies(prefix);
      HasFamilyOfLast(es);
    }
  }

  /** A family occurs when it occurs before the last font or is the last
      font's family. */
  lemma HasFamilyOfLast(es: seq<FontEntry>)
    requires es != []
    ensures forall f :: HasFamily(es, f) <==> HasFamily(es[..|es| - 1], f) || es[|es| - 1].info.family == f
  {
    var prefix := es[..|es| - 1];
    forall f
      ensures HasFamily(es, f) <==> HasFamily(prefix, f) || es[|es| - 1].info.family == f
    {
      if HasFamily(es, f) && es[|es| - 1].info.family != f {
        var i :| 0 <= i < |es| && es[i].info.family == f;
        assert prefix[i] == es[i];
      }
      if HasFamily(prefix, f) {
        var i :| 0 <= i < |prefix| && prefix[i].info.family == f;
        assert es[i] == prefix[i];
      }
    }
  }

  /** A family that does not occur has no fonts. */
  lemma {:induction false} OfAbsentFamily(es: seq<FontEntry>, f: string)
    requires !HasFamily(es, f)
    ensures OfFamily(es, f) == []
    decreases |es|
  {
    if es != [] {
      var prefix := es[..|es| - 1];
      assert es[|es| - 1].info.family != f;
      assert !HasFamily(prefix, f) by {
        forall i | 0 <= i < |prefix|
          ensures prefix[i].info.family != f
        {
          assert prefix[i] == es[i];
        }
      }
      OfAbsentFamily(prefix, f);
    }
  }

  /** Every array holds exactly the fonts of its family, in collection order. */
  lemma {:induction false} GroupsHoldFamilies(es: seq<FontEntry>)
    requires GroupByFamily(es).Done?
    ensures forall f :: f in GroupByFamily(es).value.fonts ==> GroupByFamily(es).value.fonts[f] == OfFamily(es, f)
    decreases |es|
  {
    if es != [] {
      var prefix := es[..|es| - 1];
      var e := es[|es| - 1];
      assert forall i :: 0 <= i < |prefix| ==> prefix[i] == es[i];
      GroupsHoldFamilies(prefix);
      GroupKeysAreFamilies(prefix);
      var g := GroupByFamily(prefix).value;
      var r := GroupByFamily(es).value;
      forall f | f in r.fonts
        ensures r.fonts[f] == OfFamily(es, f)
      {
        if f !in g.fonts {
          OfAbsentFamily(prefix, f);
        }
      }
    }
  }

  /** The first font of a family in a prefix is still its first font once
      more fonts follow. */
  lemma FirstIndexOfPrefix(es: seq<FontEntry>, n: nat, f: string)
    requires n <= |es| && HasFamily(es[..n], f)
    ensures HasFamily(es, f)
    ensures FirstIndex(es, f) == FirstIndex(es[..n], f)
  {
    var k := FirstIndex(es[..n], f);
    assert es[..n][k] == es[k];
    assert HasFamily(es, f);
    forall j | 0 <= j < k
      ensures es[j].info.family != f
    {
      assert es[..n][j] == es[j];
    }
  }

  /** The keys are in the order in which their families first occur. */
  lemma {:induction false} GroupsInFirstSeenOrder(es: seq<FontEntry>)
    requires GroupByFamily(es).Done?
    ensures var order := GroupByFamily(es).value.order;
      forall i :: 0 <= i < |order| ==> HasFamily(es, order[i])
    ensures var order := GroupByFamily(es).value.order;
      forall i, j :: 0 <= i < j < |order| ==> FirstIndex(es, order[i]) < FirstIndex(es, order[j])
    decreases |es|
  {
    if es != [] {
      var n := |es| - 1;
      var prefix := es[..n];
      var e := es[n];
      assert forall i :: 0 <= i < |prefix| ==> prefix[i] == es[i];
      GroupsInFirstSeenOrder(prefix);
      GroupKeysAreFamilies(prefix);
      var g := GroupByFamily(prefix).value;
      var order := GroupByFamily(es).value.order;
      forall i | 0 <= i < |g.order|
        ensures HasFamily(es, g.order[i]) && FirstIndex(es, g.order[i]) == FirstIndex(prefix, g.order[i])
      {
        FirstIndexOfPrefix(es, n, g.order[i]);
      }
      if order != g.order {
        var f := e.info.family;
        assert order == g.order + [f];
        assert !HasFamily(prefix, f);
        assert es[n].info.family == f;
        forall j | 0 <= j < n
          ensures es[j].info.family != f
        {
          assert prefix[j] == es[j];
        }
        assert FirstIndex(es, f) == n;
      }
    }
  }
}

=== FILE: font_manifest.dfy ===
/** The second half of `generateFontsSCSS`: the grouping object's keys are
    visited in `Object.keys` order, each family's fonts become `@font-face`
    rules, and one `$font-<family>` variable per family follows. */
module FontManifest {
  import opened Common
  import opened Text
  import opened Files
  import opened FontNames
  import opened PropertyKeys
  import opened FontGroups
  import Decimal

  /** What the generated file declares: the fonts in the order of their
      `@font-face` rules, and the families in the order of their variables. */
  datatype Manifest = Manifest(faces: seq<FontEntry>, families: seq<string>)

  /** The arrays held by `keys`, one after another. */
  function Flatten(keys: seq<string>, fonts: map<string, seq<FontEntry>>): seq<FontEntry>
    requires forall k :: k in keys ==> k in fonts
    decreases |keys|
  {
    if keys == [] then [] else fonts[keys[0]] + Flatten(keys[1..], fonts)
  }

  /** Grouping, then reading the groups back in `Object.keys` order. Fails
      exactly when the grouping throws. */
  function BuildManifest(es: seq<FontEntry>): (r: Attempt<Manifest>)
    ensures r.Threw? <==> SomeInherited(es)
  {
    match GroupByFamily(es)
    case Threw => Threw
    case Done(g) =>
      var keys := OwnKeys(g.order);
      Done(Manifest(Flatten(keys, g.fonts), keys))
  }

  /** Selecting a family distributes over concatenation. */
  lemma {:induction false} OfFamilyConcat(a: seq<FontEntry>, b: seq<FontEntry>, f: string)
    ensures OfFamily(a + b, f) == OfFamily(a, f) + OfFamily(b, f)
    decreases |b|
  {
    if b == [] {
      assert a + b == a;
    } else {
      var b' := b[..|b| - 1];
      assert (a + b)[..|a + b| - 1] == a + b';
      assert (a + b)[|a + b| - 1] == b[|b| - 1];
      OfFamilyConcat(a, b', f);
    }
  }

  /** Selecting the family every font already has changes nothing. */
  lemma {:induction false} OfFamilyAll(s: seq<FontEntry>, f: string)
    requires forall i :: 0 <= i < |s| ==> s[i].info.family == f
    ensures OfFamily(s, f) == s
    decreases |s|
  {
    if s != [] {
      var prefix := s[..|s| - 1];
      assert forall i :: 0 <= i < |prefix| ==> prefix[i] == s[i];
      OfFamilyAll(prefix, f);
      assert s == prefix + [s[|s| - 1]];
    }
  }

  /** Each array holds fonts of its own family only. */
  ghost predicate Homogeneous(keys: seq<string>, fonts: map<string, seq<FontEntry>>)
    requires forall k :: k in keys ==> k in fonts
  {
    forall i, j :: 0 <= i < |keys| && 0 <= j < |fonts[keys[i]]| ==> fonts[keys[i]][j].info.family == keys[i]
  }

  /** An array holding fonts of family `k` only yields all of them for `k`
      and none for any other family. */
  lemma OfFamilyOfArray(arr: seq<FontEntry>, k: string, f: string)
    requires forall j :: 0 <= j < |arr| ==> arr[j].info.family == k
    ensures OfFamily(arr, f) == if k == f then arr else []
  {
    if k == f {
      OfFamilyAll(arr, f);
    } else {
      OfAbsentFamily(arr, f);
    }
  }

  /** Dropping the first key keeps the keys distinct and the arrays homogeneous. */
  lemma TailKeys(keys: seq<string>, fonts: map<string, seq<FontEntry>>)
    requires keys != []
    requires forall k :: k in keys ==> k in fonts
    requires NoDup(keys) && Homogeneous(keys, fonts)
    ensures NoDup(keys[1..]) && Homogeneous(keys[1..], fonts) && keys[0] !in keys[1..]
  {
    var rest := keys[1..];
    forall i, j | 0 <= i < j < |rest|
      ensures rest[i] != rest[j]
    {
      assert rest[i] == keys[i + 1] && rest[j] == keys[j + 1];
    }
    forall i, j | 0 <= i < |rest| && 0 <= j < |fonts[rest[i]]|
      ensures fonts[rest[i]][j].info.family == rest[i]
    {
      assert rest[i] == keys[i + 1];
    }
    forall i | 0 <= i < |rest|
      ensures rest[i] != keys[0]
    {
      assert rest[i] == keys[i + 1];
    }
  }

  /** Reading the groups back one after another yields, for every family,
      exactly its array when its key is listed, and nothing otherwise. */
  lemma {:induction false} OfFamilyOfFlatten(keys: seq<string>, fonts: map<string, seq<FontEntry>>, f: string)
    requires forall k :: k in keys ==> k in fonts
    requires NoDup(keys) && Homogeneous(keys, fonts)
    ensures OfFamily(Flatten(keys, fonts), f) == if f in keys then fonts[f] else []
    decreases |keys|
  {
    if keys != [] {
      var k := keys[0];
      var rest := keys[1..];
      TailKeys(keys, fonts);
      OfFamilyOfFlatten(rest, fonts, f);
      OfFamilyConcat(fonts[k], Flatten(rest, fonts), f);
      assert forall j :: 0 <= j < |fonts[k]| ==> fonts[k][j].info.family == k;
      OfFamilyOfArray(fonts[k], k, f);
      assert f in keys <==> f == k || f in rest;
      if k == f {
        assert fonts[f] + [] == fonts[f];
      }
    }
  }

  /** The generated file lists each family once, and exactly the families
      that occur among the collected fonts. */
  lemma ManifestFamilies(es: seq<FontEntry>)
    requires BuildManifest(es).Done?
    ensures NoDup(BuildManifest(es).value.families)
    ensures forall f :: f in BuildManifest(es).value.families <==> HasFamily(es, f)
  {
    var g := GroupByFamily(es).value;
    OwnKeysListsEachKeyOnce(g.order);
    GroupKeysAreFamilies(es);
  }

  /** For every family, the `@font-face` rules of the generated file are
      exactly that family's collected fonts, in collection order: no font is
      lost, none is repeated, and none changes family. */
  lemma ManifestKeepsEveryFont(es: seq<FontEntry>)
    requires BuildManifest(es).Done?
    ensures forall f :: OfFamily(BuildManifest(es).value.faces, f) == OfFamily(es, f)
  {
    var g := GroupByFamily(es).value;
    var keys := OwnKeys(g.order);
    OwnKeysListsEachKeyOnce(g.order);
    GroupKeysAreFamilies(es);
    GroupsHoldFamilies(es);
    GroupsHomogeneous(es);
    var faces := Flatten(keys, g.fonts);
    assert BuildManifest(es).value.faces == faces;
    forall f
      ensures OfFamily(faces, f) == OfFamily(es, f)
    {
      OfFamilyOfFlatten(keys, g.fonts, f);
      if f !in keys {
        OfAbsentFamily(es, f);
      }
    }
  }

  /** Read back in `Object.keys` order, each array of the grouping object
      holds fonts of its own family only. */
  lemma GroupsHomogeneous(es: seq<FontEntry>)
    requires GroupByFamily(es).Done?
    ensures var g := GroupByFamily(es).value;
      && (forall k :: k in OwnKeys(g.order) ==> k in g.fonts)
      && Homogeneous(OwnKeys(g.order), g.fonts)
  {
    var g := GroupByFamily(es).value;
    var keys := OwnKeys(g.order);
    OwnKeysSameKeys(g.order);
    GroupsHoldFamilies(es);
    forall i, j | 0 <= i < |keys| && 0 <= j < |g.fonts[keys[i]]|
      ensures g.fonts[keys[i]][j].info.family == keys[i]
    {
      assert g.fonts[keys[i]][j] in OfFamily(es, keys[i]);
    }
  }

  /** How often a font occurs is how often it occurs among its own family. */
  lemma {:induction false} CountWithinFamily(s: seq<FontEntry>, x: FontEntry)
    ensures multiset(OfFamily(s, x.info.family))[x] == multiset(s)[x]
    decreases |s|
  {
    if s != [] {
      var prefix := s[..|s| - 1];
      CountWithinFamily(prefix, x);
      assert s == prefix + [s[|s| - 1]];
    }
  }

  /** The `@font-face` rules are a permutation of the collected fonts. */
  lemma ManifestIsPermutation(es: seq<FontEntry>)
    requires BuildManifest(es).Done?
    ensures multiset(BuildManifest(es).value.faces) == multiset(es)
  {
    var faces := BuildManifest(es).value.faces;
    ManifestKeepsEveryFont(es);
    forall x
      ensures multiset(faces)[x] == multiset(es)[x]
    {
      CountWithinFamily(faces, x);
      CountWithinFamily(es, x);
    }
  }

  /** Each listed family's collected fonts, one family after another. */
  function ConcatFamilies(families: seq<string>, es: seq<FontEntry>): seq<FontEntry>
    decreases |families|
  {
    if families == [] then [] else OfFamily(es, families[0]) + ConcatFamilies(families[1..], es)
  }

  /** Reading back arrays that each hold one family's fonts yields those
      families' fonts one family after another. */
  lemma {:induction false} FlattenOfFamilies(keys: seq<string>, fonts: map<string, seq<FontEntry>>, es: seq<FontEntry>)
    requires forall k :: k in keys ==> k in fonts && fonts[k] == OfFamily(es, k)
    ensures Flatten(keys, fonts) == ConcatFamilies(keys, es)
    decreases |keys|
  {
    if keys != [] {
      assert keys[0] in keys;
      assert forall k :: k in keys[1..] ==> k in keys;
      FlattenOfFamilies(keys[1..], fonts, es);
    }
  }

  /** The `@font-face` rules come family by family, in the order of the
      families' variables, each family's fonts in collection order: the
      rules of one family are never interleaved with another's. */
  lemma ManifestGroupedByFamily(es: seq<FontEntry>)
    requires BuildManifest(es).Done?
    ensures BuildManifest(es).value.faces == ConcatFamilies(BuildManifest(es).value.families, es)
  {
    var g := GroupByFamily(es).value;
    var keys := OwnKeys(g.order);
    OwnKeysSameKeys(g.order);
    GroupKeysAreFamilies(es);
    GroupsHoldFamilies(es);
    FlattenOfFamilies(keys, g.fonts, es);
  }

  /** When no family name looks like an array index, the families appear in
      the order in which each first occurs among the collected fonts. */
  lemma ManifestFamiliesInFirstSeenOrder(es: seq<FontEntry>)
    requires BuildManifest(es).Done?
    requires forall i :: 0 <= i < |es| ==> IsNamedKey(es[i].info.family)
    ensures var fs := BuildManifest(es).value.families;
      forall i :: 0 <= i < |fs| ==> HasFamily(es, fs[i])
    ensures var fs := BuildManifest(es).value.families;
      forall i, j :: 0 <= i < j < |fs| ==> FirstIndex(es, fs[i]) < FirstIndex(es, fs[j])
  {
    var g := GroupByFamily(es).value;
    GroupsInFirstSeenOrder(es);
    GroupKeysNamed(es);
    OwnKeysOfNamedKeys(g.order);
    assert BuildManifest(es).value.families == g.order;
  }

  /** When no family name looks like an array index, neither does any key of
      the grouping object. */
  lemma GroupKeysNamed(es: seq<FontEntry>)
    requires GroupByFamily(es).Done?
    requires forall i :: 0 <= i < |es| ==> IsNamedKey(es[i].info.family)
    ensures forall i :: 0 <= i < |GroupByFamily(es).value.order| ==> IsNamedKey(GroupByFamily(es).value.order[i])
  {
    var order := GroupByFamily(es).value.order;
    GroupsInFirstSeenOrder(es);
    forall i | 0 <= i < |order|
      ensures IsNamedKey(order[i])
    {
      var k :| 0 <= k < |es| && es[k].info.family == order[i];
    }
  }

  /** The families whose names are array indices come first, in ascending
      numeric order, whatever order the fonts were collected in. */
  lemma ManifestIndexFamiliesFirst(es: seq<FontEntry>)
    requires BuildManifest(es).Done?
    ensures var fs := BuildManifest(es).value.families;
      forall i, j :: 0 <= i < j < |fs| && IsArrayIndex(fs[j]) ==> IsArrayIndex(fs[i]) && IndexValue(fs[i]) < IndexValue(fs[j])
  {
    OwnKeysIndicesFirst(GroupByFamily(es).value.order);
  }

  // The text of the generated file.

  const FileHeader := "// Файл автоматически сгенерирован скриптом convertFonts.js\n\n"
  const VariablesHeader := "// Переменные для использования шрифтов\n"

  function StyleName(s: Style): string {
    match s
    case Normal => "normal"
    case Italic => "italic"
  }

  /** The `@font-face` rule for one font of `family`: the family, the two
      web files the converter writes for it, its weight and its style. */
  function FaceRule(family: string, e: FontEntry): string {
    FaceOpening(family) + SourceLines(e.fileName) + FaceClosing(e.info)
  }

  function FaceOpening(family: string): string {
    "@font-face {\n" + "  font-family: '" + family + "';\n"
  }

  /** The `src` descriptor: the .woff2 file first, then the .woff file. */
  function SourceLines(fileName: string): string {
    "  src: url('/assets/fonts/" + fileName + ".woff2') format('woff2'),\n"
    + "       url('/assets/fonts/" + fileName + ".woff') format('woff');\n"
  }

  function FaceClosing(info: FontInfo): string {
    "  font-weight: " + Decimal.Show(info.weight) + ";\n"
    + "  font-style: " + StyleName(info.style) + ";\n"
    + "  font-display: swap;\n"
    + "}\n\n"
  }

  /** A face's rule points at the files named after its entry. */
  lemma FaceRuleNamesFiles(family: string, e: FontEntry)
    ensures Contains(FaceRule(family, e), SourceLines(e.fileName))
  {
    ContainsPiece(FaceOpening(family), SourceLines(e.fileName), FaceClosing(e.info));
  }

  /** The variable naming one family, for use in style sheets. */
  function VariableLine(family: string): string {
    "$font-" + Lower(family) + ": '" + family + "', sans-serif;\n"
  }

  /** The rules of the faces, in order. Each font is written under its own
      family, which is the key it was grouped under. */
  function FaceRules(faces: seq<FontEntry>): seq<string> {
    seq(|faces|, i requires 0 <= i < |faces| => FaceRule(faces[i].info.family, faces[i]))
  }

  function VariableLines(families: seq<string>): seq<string> {
    seq(|families|, i requires 0 <= i < |families| => VariableLine(families[i]))
  }

  function RenderManifest(m: Manifest): string {
    FileHeader + Concat(FaceRules(m.faces)) + VariablesHeader + Concat(VariableLines(m.families))
  }

  /** `generateFontsSCSS(fontsInfo)`: the text written to fonts.scss, or the
      exception the grouping throws. */
  function GenerateFontsScss(es: seq<FontEntry>): (r: Attempt<string>)
    ensures r.Threw? <==> SomeInherited(es)
  {
    match BuildManifest(es)
    case Threw => Threw
    case Done(m) => Done(RenderManifest(m))
  }

  /** Every collected font is among the faces, and its family among the families. */
  lemma EveryFontListed(es: seq<FontEntry>, e: FontEntry)
    requires BuildManifest(es).Done? && e in es
    ensures e in BuildManifest(es).value.faces
    ensures e.info.family in BuildManifest(es).value.families
  {
    var m := BuildManifest(es).value;
    ManifestKeepsEveryFont(es);
    ManifestFamilies(es);
    assert e in OfFamily(es, e.info.family);
    var k :| 0 <= k < |es| && es[k] == e;
    assert HasFamily(es, e.info.family);
  }

  /** The generated file declares every collected font, under its family and
      with its weight and style. */
  lemma GeneratedFileDeclaresEveryFont(es: seq<FontEntry>, e: FontEntry)
    requires GenerateFontsScss(es).Done? && e in es
    ensures Contains(GenerateFontsScss(es).value, FaceRule(e.info.family, e))
  {
    var m := BuildManifest(es).value;
    var rules := Concat(FaceRules(m.faces));
    EveryFontListed(es, e);
    var i :| 0 <= i < |m.faces| && m.faces[i] == e;
    ConcatHoldsEach(FaceRules(m.faces), i);
    ContainsInRight(FileHeader, rules, FaceRule(e.info.family, e));
    ContainsInLeft(FileHeader + rules, VariablesHeader, FaceRule(e.info.family, e));
    ContainsInLeft(FileHeader + rules + VariablesHeader, Concat(VariableLines(m.families)), FaceRule(e.info.family, e));
  }

  /** The generated file defines a variable for the family of every collected font. */
  lemma GeneratedFileNamesEveryFamily(es: seq<FontEntry>, e: FontEntry)
    requires GenerateFontsScss(es).Done? && e in es
    ensures Contains(GenerateFontsScss(es).value, VariableLine(e.info.family))
  {
    var m := BuildManifest(es).value;
    EveryFontListed(es, e);
    var j :| 0 <= j < |m.families| && m.families[j] == e.info.family;
    ConcatHoldsEach(VariableLines(m.families), j);
    ContainsInRight(FileHeader + Concat(FaceRules(m.faces)) + VariablesHeader, Concat(VariableLines(m.families)), VariableLine(e.info.family));
  }
}

=== FILE: font_name_examples.dfy ===
/** Worked examples of the font-name classifier on names of the form
    `Family-Modifier.ttf`. */
module FontNameExamples {
  import opened Text
  import opened FontNames

  lemma SemiBoldIs600(example: string)
    requires example == "semibold"
    ensures WeightOf(example) == 600 && StyleOf(example) == Normal
  {
    assert !Contains(example, "thin") by { MissingChar(example, "thin", 'h'); }
    assert !Contains(example, "extralight") by { MissingChar(example, "extralight", 'x'); }
    assert !Contains(example, "ultralight") by { MissingChar(example, "ultralight", 'u'); }
    assert !Contains(example, "light") by { MissingChar(example, "light", 'g'); }
    assert !Contains(example, "regular") by { MissingChar(example, "regular", 'r'); }
    assert !Contains(example, "medium") by { MissingChar(example, "medium", 'u'); }
    assert !Contains(example, "italic") by { MissingChar(example, "italic", 't'); }
    assert example[0..8] == "semibold";
    OccursThenContains(example, "semibold", 0);
  }

  lemma ExtraBoldIs700(example: string)
    requires example == "extrabold"
    ensures WeightOf(example) == 700 && StyleOf(example) == Normal
  {
    assert !Contains(example, "thin") by { MissingChar(example, "thin", 'h'); }
    assert !Contains(example, "extralight") by { MissingChar(example, "extralight", 'g'); }
    assert !Contains(example, "ultralight") by { MissingChar(example, "ultralight", 'u'); }
    assert !Contains(example, "light") by { MissingChar(example, "light", 'g'); }
    assert !Contains(example, "regular") by { MissingChar(example, "regular", 'g'); }
    assert !Contains(example, "medium") by { MissingChar(example, "medium", 'm'); }
    assert !Contains(example, "semibold") by { MissingChar(example, "semibold", 's'); }
    assert !Contains(example, "demibold") by { MissingChar(example, "demibold", 'm'); }
    assert !Contains(example, "italic") by { MissingChar(example, "italic", 'c'); }
    assert Contains(example, "bold") by { BoldInside(example); }
  }

  lemma ThinItalicIs100Italic(example: string)
    requires example == "thinitalic"
    ensures WeightOf(example) == 100 && StyleOf(example) == Italic
  {
    assert example[0..4] == "thin";
    OccursThenContains(example, "thin", 0);
    assert example[4..10] == "italic";
    OccursThenContains(example, "italic", 4);
  }

  /** Lower-casing the modifier of the SemiBold example. */
  lemma LowerSemiBold(modifier: string)
    requires modifier == "SemiBold"
    ensures Lower(modifier) == "semibold"
  {
    assert |Lower(modifier)| == 8;
  }

  /** Lower-casing the modifier of the ExtraBold example. */
  lemma LowerExtraBold(modifier: string)
    requires modifier == "ExtraBold"
    ensures Lower(modifier) == "extrabold"
  {
    assert |Lower(modifier)| == 9;
  }

  /** Lower-casing the modifier of the ThinItalic example. */
  lemma LowerThinItalic(modifier: string)
    requires modifier == "ThinItalic"
    ensures Lower(modifier) == "thinitalic"
  {
    assert |Lower(modifier)| == 10;
  }

  /** A file `family-modifier.ttf` is classified by its modifier alone. */
  lemma FamilyModifierFile(family: string, modifier: string)
    requires '-' !in family && '-' !in modifier
    ensures GetFontInfo(family + "-" + modifier + ".ttf") == FontInfo(family, WeightOf(Lower(modifier)), StyleOf(Lower(modifier)))
  {
    TtfSuffixStripped(family + "-" + modifier);
    InfoOfFamilyModifier(family, modifier);
  }

  /** A SemiBold file is 600, normal. */
  lemma SemiBoldExample(example: string)
    requires example == "Roboto-SemiBold.ttf"
    ensures GetFontInfo(example) == FontInfo("Roboto", 600, Normal)
  {
    var family, modifier := "Roboto", "SemiBold";
    assert example == family + "-" + modifier + ".ttf";
    FamilyModifierFile(family, modifier);
    LowerSemiBold(modifier);
    SemiBoldIs600(Lower(modifier));
  }

  /** ExtraBold is classified 700, as the code is written. */
  lemma ExtraBoldExample(example: string)
    requires example == "Inter-ExtraBold.ttf"
    ensures GetFontInfo(example) == FontInfo("Inter", 700, Normal)
  {
    var family, modifier := "Inter", "ExtraBold";
    assert example == family + "-" + modifier + ".ttf";
    FamilyModifierFile(family, modifier);
    LowerExtraBold(modifier);
    ExtraBoldIs700(Lower(modifier));
  }

  /** "thin" wins and italic is decided separately: ThinItalic is 100, italic. */
  lemma ThinItalicExample(example: string)
    requires example == "Inter-ThinItalic.ttf"
    ensures GetFontInfo(example) == FontInfo("Inter", 100, Italic)
  {
    var family, modifier := "Inter", "ThinItalic";
    assert example == family + "-" + modifier + ".ttf";
    FamilyModifierFile(family, modifier);
    LowerThinItalic(modifier);
    ThinItalicIs100Italic(Lower(modifier));
  }
}

=== FILE: font_names.dfy ===
/** `getFontInfo`: what the font script reads out of a font file name of the
    form `Family-Modifier.ttf`. The family is the text before the first '-';
    the weight and style come from the second '-'-separated token only,
    lower-cased, by substring tests in a fixed first-match-wins order; the
    style is decided independently of the weight. */
module FontNames {
  import opened Common
  import opened Text
  import opened Paths

  datatype Style = Normal | Italic

  datatype FontInfo = FontInfo(family: string, weight: nat, style: Style)

  /** The weights the classifier can produce. 800 is absent: see `WeightNever800`. */
  const ReachableWeights: set<nat> := {100, 200, 300, 400, 500, 600, 700, 900}

  /** The weight selected by a lower-cased modifier token, tested in the
      script's order. Note the equality (not substring) test for "normal", and
      that the "extrabold"/"ultrabold" test comes after the "bold" test. */
  function WeightOf(m: string): nat {
    if Contains(m, "thin") then 100
    else if Contains(m, "extralight") || Contains(m, "ultralight") then 200
    else if Contains(m, "light") then 300
    else if Contains(m, "regular") || m == "normal" then 400
    else if Contains(m, "medium") then 500
    else if Contains(m, "semibold") || Contains(m, "demibold") then 600
    else if Contains(m, "bold") then 700
    else if Contains(m, "extrabold") || Contains(m, "ultrabold") then 800
    else if Contains(m, "black") || Contains(m, "heavy") then 900
    else 400
  }

  function StyleOf(m: string): Style {
    if Contains(m, "italic") then Italic else Normal
  }

  /** The second '-'-separated token of a base name, when there is one: there
      is one exactly when the name contains a '-', and it holds no '-'. */
  function Modifier(base: string): (m: Option<string>)
    ensures m.Some? <==> '-' in base
    ensures m.Some? ==> '-' !in m.value
  {
    var parts := Split(base, '-');
    SplitSingle(base, '-');
    SplitPiecesSeparatorFree(base, '-');
    if |parts| > 1 then Some(parts[1]) else None
  }

  /** The classification of a base name (the file name without ".ttf"). */
  function InfoOfBase(base: string): FontInfo {
    var family := Split(base, '-')[0];
    match Modifier(base)
    case None => FontInfo(family, 400, Normal)
    case Some(token) => FontInfo(family, WeightOf(Lower(token)), StyleOf(Lower(token)))
  }

  /** `getFontInfo(filename)`: total, never throws. The family is the longest
      '-'-free prefix of the base name; without a modifier the font is 400
      normal; the style is italic exactly when the lower-cased modifier
      contains "italic"; the weight is always one of the reachable weights. */
  function GetFontInfo(fileName: string): (r: FontInfo)
    ensures var base := BasenameOfName(fileName, ".ttf");
      && |r.family| <= |base| && base[..|r.family|] == r.family
      && '-' !in r.family
      && (|r.family| < |base| ==> base[|r.family|] == '-')
    ensures var m := Modifier(BasenameOfName(fileName, ".ttf"));
      && (m.None? ==> r.weight == 400 && r.style == Normal)
      && (r.style == Italic <==> m.Some? && Contains(Lower(m.value), "italic"))
    ensures r.weight in ReachableWeights
  {
    var base := BasenameOfName(fileName, ".ttf");
    FamilyIsFirstToken(base);
    if Modifier(base).Some? then WeightNever800(Lower(Modifier(base).value)); InfoOfBase(base)
    else InfoOfBase(base)
  }

  /** The first token of a split is the longest separator-free prefix. */
  lemma FamilyIsFirstToken(base: string)
    ensures var f := Split(base, '-')[0];
      && |f| <= |base| && base[..|f|] == f
      && '-' !in f
      && (|f| < |base| ==> base[|f|] == '-')
  {
    var parts := Split(base, '-');
    SplitPiecesSeparatorFree(base, '-');
    JoinSplit(base, '-');
    if |parts| > 1 {
      assert base == parts[0] + ['-'] + Join(parts[1..], '-');
    }
  }

  /** Every name containing "extrabold" or "ultrabold" contains "bold". */
  lemma ExtraBoldContainsBold(m: string)
    requires Contains(m, "extrabold") || Contains(m, "ultrabold")
    ensures Contains(m, "bold")
  {
    if Contains(m, "extrabold") {
      BoldInside("extrabold");
      ContainsTransitive(m, "extrabold", "bold");
    } else {
      BoldInside("ultrabold");
      ContainsTransitive(m, "ultrabold", "bold");
    }
  }

  /** "bold" is the tail of both the "extrabold" and "ultrabold" keywords. */
  lemma BoldInside(k: string)
    requires k == "extrabold" || k == "ultrabold"
    ensures Contains(k, "bold")
  {
    assert k[5..9] == "bold";
    OccursThenContains(k, "bold", 5);
  }

  /** The 800 branch is dead code: any token that would reach it has already
      been classified 700 by the "bold" test. */
  lemma WeightNever800(m: string)
    ensures WeightOf(m) in ReachableWeights
  {
    if Contains(m, "extrabold") || Contains(m, "ultrabold") {
      ExtraBoldContainsBold(m);
    }
  }

  /** A word is absent from a text lacking one of its characters. */
  lemma MissingChar(s: string, w: string, c: char)
    requires c in w && c !in s
    ensures !Contains(s, w)
  {
    var k :| 0 <= k < |w| && w[k] == c;
    forall i | 0 <= i && i + |w| <= |s|
      ensures !OccursAt(s, w, i)
    {
      assert s[i..i + |w|][k] == s[i + k];
    }
  }

  /** Splitting `family-modifier` followed by nothing or by more '-'-led text
      gives `family` and `modifier` as the first two tokens. */
  lemma SplitFamilyModifier(family: string, modifier: string, tail: string)
    requires '-' !in family && '-' !in modifier
    requires tail == "" || tail[0] == '-'
    ensures |Split(family + "-" + modifier + tail, '-')| >= 2
    ensures Split(family + "-" + modifier + tail, '-')[0] == family
    ensures Split(family + "-" + modifier + tail, '-')[1] == modifier
  {
    var s := family + "-" + modifier + tail;
    var rest := "-" + modifier + tail;
    assert s == family + rest;
    SplitAfterWord(family, rest, '-');
    assert rest[1..] == modifier + tail;
    var inner := Split(rest, '-');
    assert inner == [""] + Split(modifier + tail, '-');
    SplitAfterWord(modifier, tail, '-');
    if tail == "" {
      assert modifier + tail == modifier;
    } else {
      assert Split(tail, '-')[0] == "";
    }
    assert family + "" == family;
  }

  /** Only the second token is examined: whatever follows a further '-' is ignored. */
  lemma LaterTokensIgnored(family: string, modifier: string, rest: string)
    requires '-' !in family && '-' !in modifier
    ensures InfoOfBase(family + "-" + modifier + "-" + rest) == InfoOfBase(family + "-" + modifier)
  {
    SplitFamilyModifier(family, modifier, "-" + rest);
    SplitFamilyModifier(family, modifier, "");
    assert family + "-" + modifier + ("-" + rest) == family + "-" + modifier + "-" + rest;
    assert family + "-" + modifier + "" == family + "-" + modifier;
  }

  /** ".ttf" is stripped as an exact suffix before classifying. */
  lemma TtfSuffixStripped(base: string)
    ensures GetFontInfo(base + ".ttf") == InfoOfBase(base)
  {
    assert (base + ".ttf")[..|base|] == base;
  }

  /** A base name `family-modifier` is classified by its modifier alone. */
  lemma InfoOfFamilyModifier(family: string, modifier: string)
    requires '-' !in family && '-' !in modifier
    ensures InfoOfBase(family + "-" + modifier) == FontInfo(family, WeightOf(Lower(modifier)), StyleOf(Lower(modifier)))
  {
    SplitFamilyModifier(family, modifier, "");
    assert family + "-" + modifier + "" == family + "-" + modifier;
  }
}

=== FILE: image_convert.dfy ===
/** `processImages`: select the entries of the input directory whose
    extension, lower-cased, is that of a JPEG, PNG, GIF or SVG image, and for
    each write an optimised copy under the same name in the output directory,
    plus a WebP version for JPEG and PNG; GIFs are copied unchanged. Each
    image is handled inside its own `try`, so a failure ends only the work on
    that image. */
module ImageConvert {
  import opened Common
  import opened Text
  import opened Paths
  import opened Files
  import opened Batch

  /** The extensions the listing filter accepts, compared lower-cased. */
  const ImageExtensions: seq<string> := [".jpg", ".jpeg", ".png", ".gif", ".svg"]

  /** The listing filter. */
  predicate IsImageName(name: string) {
    Lower(ExtName(name)) in ImageExtensions
  }

  /** The selected entries, in listing order. */
  function ImageFiles(names: seq<string>): (r: seq<string>)
    ensures forall x :: x in r <==> x in names && IsImageName(x)
    ensures forall i :: 0 <= i < |r| ==> IsImageName(r[i])
  {
    Filter(names, IsImageName)
  }

  datatype Kind = Jpeg | Png | Svg | Gif

  /** The branch of the dispatch an entry takes, from its lower-cased extension. */
  function KindOf(name: string): Option<Kind> {
    var ext := Lower(ExtName(name));
    if ext == ".jpg" || ext == ".jpeg" then Some(Jpeg)
    else if ext == ".png" then Some(Png)
    else if ext == ".svg" then Some(Svg)
    else if ext == ".gif" then Some(Gif)
    else None
  }

  /** `path.basename(fullPath, path.extname(fullPath)) + '.webp'`: the original
      extension, in its original case, replaced by ".webp". */
  function WebpName(name: string): string {
    BasenameOfPath(name, ExtName(name)) + ".webp"
  }

  /** The files processing an entry is meant to produce, in the order it
      writes them. */
  function OutputsFor(name: string): seq<string> {
    match KindOf(name)
    case Some(Jpeg) => [name, WebpName(name)]
    case Some(Png) => [name, WebpName(name)]
    case Some(Svg) => [name]
    case Some(Gif) => [name]
    case None => []
  }

  /** The optimisers (mozjpeg, pngquant and svgo through imagemin) and the
      WebP encoder (sharp), each with the script's fixed options. */
  datatype ImageCodecs = ImageCodecs(mozjpeg: Codec, pngquant: Codec, svgo: Codec, webp: Codec)

  /** How the work on one image ended. */
  datatype ImageStatus = Processed | ReadFailed | OptimiseFailed | WebpFailed

  /** The optimiser of a kind that has one. */
  function OptimiserOf(codecs: ImageCodecs, k: Kind): Codec
    requires k != Gif
  {
    match k
    case Jpeg => codecs.mozjpeg
    case Png => codecs.pngquant
    case Svg => codecs.svgo
  }

  /** The `try` block for one image. The files it writes are always a prefix of
      its intended outputs, and it has processed the image exactly when it
      wrote all of them. The optimised copy is the optimiser's output for the
      source bytes, and the WebP file is encoded from the source bytes too, not
      from the optimised copy; a GIF is copied byte for byte. When optimising
      fails nothing is written; when the WebP encoding fails the optimised copy
      stays. */
  function ProcessImage(files: map<string, Bytes>, codecs: ImageCodecs, name: string): (r: FileRun<ImageStatus>)
    ensures |r.writes| <= |OutputsFor(name)|
    ensures WrittenNames(r.writes) == OutputsFor(name)[..|r.writes|]
    ensures r.status == Processed <==> name in files && |r.writes| == |OutputsFor(name)|
    ensures r.status == ReadFailed <==> name !in files
    ensures r.status == ReadFailed ==> r.writes == []
    ensures r.status == OptimiseFailed <==>
      (name in files && KindOf(name).Some? && KindOf(name).value != Gif
       && OptimiserOf(codecs, KindOf(name).value)(files[name]).Threw?)
    ensures r.status == OptimiseFailed ==> r.writes == []
    ensures KindOf(name) == Some(Gif) && name in files ==> r.writes == [Write(name, files[name])]
    ensures |r.writes| >= 1 && KindOf(name) != Some(Gif) ==>
      (name in files && KindOf(name).Some?
       && OptimiserOf(codecs, KindOf(name).value)(files[name]) == Done(r.writes[0].data))
    ensures |r.writes| == 2 ==> codecs.webp(files[name]) == Done(r.writes[1].data)
    ensures r.status == WebpFailed <==> |r.writes| == 1 && |OutputsFor(name)| == 2
    ensures r.status == WebpFailed ==> name in files && codecs.webp(files[name]).Threw?
  {
    if name !in files then FileRun([], ReadFailed)
    else
      var data := files[name];
      match KindOf(name)
      case None => FileRun([], Processed)
      case Some(Gif) => FileRun([Write(name, data)], Processed)
      case Some(Svg) =>
        (match codecs.svgo(data)
         case Threw => FileRun([], OptimiseFailed)
         case Done(small) => FileRun([Write(name, small)], Processed))
      case Some(k) =>
        match OptimiserOf(codecs, k)(data)
        case Threw => FileRun([], OptimiseFailed)
        case Done(small) =>
          var first := Write(name, small);
          match codecs.webp(data)
          case Threw => FileRun([first], WebpFailed)
          case Done(webp) => FileRun([first, Write(WebpName(name), webp)], Processed)
  }

  /** A JPEG or PNG whose optimiser and WebP encoder both succeed gets both
      files: the optimised copy under its own name and the encoding under its
      WebP name. */
  lemma SuccessfulWebpWritten(files: map<string, Bytes>, codecs: ImageCodecs, name: string)
    requires name in files && KindOf(name) in {Some(Jpeg), Some(Png)}
    requires OptimiserOf(codecs, KindOf(name).value)(files[name]).Done?
    requires codecs.webp(files[name]).Done?
    ensures var r := ProcessImage(files, codecs, name);
      && r.status == Processed
      && r.writes == [Write(name, OptimiserOf(codecs, KindOf(name).value)(files[name]).value),
                      Write(WebpName(name), codecs.webp(files[name]).value)]
  {
  }

  /** The loop body as a step of the shared per-file loop. */
  function ImageStep(files: map<string, Bytes>, codecs: ImageCodecs): string -> FileRun<ImageStatus> {
    name => ProcessImage(files, codecs, name)
  }

  /** A run of the script: stopped before the loop, or the loop ran. */
  datatype ImageRun =
    | Halted(reason: Halt)
    | Ran(target: Dir, statuses: seq<ImageStatus>)

  /** `processImages()` on the input directory `src` and the output directory
      `target`. It stops when the input directory is missing, cannot be
      listed, or holds no image; otherwise every selected image gets one
      status, in listing order, and the output directory ends up as all their
      writes performed in turn. */
  function ProcessImages(src: Source, target: Dir, codecs: ImageCodecs): (r: ImageRun)
    ensures src.Missing? <==> r == Halted(SourceMissing)
    ensures src.Unlistable? <==> r == Halted(ListingFailed)
    ensures r == Halted(NothingToProcess) <==> src.Listed? && ImageFiles(src.names) == []
    ensures r.Ran? ==> src.Listed? && |r.statuses| == |ImageFiles(src.names)|
    ensures r.Ran? ==> forall i :: 0 <= i < |r.statuses| ==>
      r.statuses[i] == ProcessImage(src.files, codecs, ImageFiles(src.names)[i]).status
    ensures r.Ran? ==> r.target == Apply(target, RunAll(ImageFiles(src.names), ImageStep(src.files, codecs)).writes)
  {
    match src
    case Missing => Halted(SourceMissing)
    case Unlistable => Halted(ListingFailed)
    case Listed(names, files) =>
      var images := ImageFiles(names);
      if images == [] then Halted(NothingToProcess)
      else
        var run := RunAll(images, ImageStep(files, codecs));
        Ran(Apply(target, run.writes), run.statuses)
  }

  /** The dispatch covers exactly the entries the filter selects. */
  lemma DispatchCoversSelection(name: string)
    ensures KindOf(name).Some? <==> IsImageName(name)
    ensures IsImageName(name) <==> |OutputsFor(name)| > 0
  {
    var ext := Lower(ExtName(name));
    assert ext in ImageExtensions <==> ext == ".jpg" || ext == ".jpeg" || ext == ".png" || ext == ".gif" || ext == ".svg";
  }

  /** The extension of a WebP output is ".webp" (or none, for an empty base). */
  lemma ExtNameOfWebp(base: string)
    ensures ExtName(base + ".webp") == (if base == "" then "" else ".webp")
  {
    var s := base + ".webp";
    var k := LastDot(s);
    assert s[|base|] == '.';
    forall i | |base| < i < |s|
      ensures s[i] != '.'
    {
      assert s[i] == ".webp"[i - |base|];
    }
    if base != "" {
      assert s[k..] == ".webp";
    }
  }

  /** A WebP output never has the name of an optimised copy or a GIF copy,
      since its extension is not an image extension. */
  lemma WebpNeverImage(name: string)
    ensures !IsImageName(WebpName(name))
  {
    var base := BasenameOfPath(name, ExtName(name));
    ExtNameOfWebp(base);
    var ext := ExtName(WebpName(name));
    assert ext == "" || ext == ".webp";
    assert Lower(ext) == ext by {
      assert |Lower(ext)| == |ext|;
      forall i | 0 <= i < |ext|
        ensures Lower(ext)[i] == ext[i]
      {
        assert ext[i] in ".webp";
      }
    }
  }

  /** A processed image is in the output directory with each of its outputs
      as it wrote them (its optimiser's and the WebP encoder's output for its
      bytes), provided no later image writes the same name. */
  lemma ProcessedImageIsServed(src: Source, target: Dir, codecs: ImageCodecs, i: int, out: string)
    requires src.Listed? && 0 <= i < |ImageFiles(src.names)|
    requires ProcessImage(src.files, codecs, ImageFiles(src.names)[i]).status == Processed
    requires out in OutputsFor(ImageFiles(src.names)[i])
    requires var images := ImageFiles(src.names);
      forall j :: i < j < |images| ==> out !in OutputsFor(images[j])
    ensures var r := ProcessImages(src, target, codecs);
      && r.Ran? && out in r.target
      && Write(out, r.target[out]) in ProcessImage(src.files, codecs, ImageFiles(src.names)[i]).writes
  {
    var images := ImageFiles(src.names);
    var name := images[i];
    var step := ImageStep(src.files, codecs);
    var ws := ProcessImage(src.files, codecs, name).writes;
    var k :| 0 <= k < |OutputsFor(name)| && OutputsFor(name)[k] == out;
    forall j | i < j < |images|
      ensures out !in WrittenNames(step(images[j]).writes)
    {
      WritesOnlyOutputs(src.files, codecs, images[j], out);
    }
    ProcessedWrites(src.files, codecs, name, k);
    assert WrittenNames(ws)[k] == ws[k].name;
    OutputSurvivesLaterFiles(target, images, step, i, out);
    assert ws[k] == Write(out, ProcessImages(src, target, codecs).target[out]);
  }

  /** Processing an image writes none but its own outputs. */
  lemma WritesOnlyOutputs(files: map<string, Bytes>, codecs: ImageCodecs, name: string, out: string)
    requires out !in OutputsFor(name)
    ensures out !in WrittenNames(ProcessImage(files, codecs, name).writes)
  {
    var ws := ProcessImage(files, codecs, name).writes;
    assert WrittenNames(ws) == OutputsFor(name)[..|ws|];
  }

  /** A name that is no output of any selected image is left as it was:
      present after the run exactly when it was present before, with the
      same contents. No other names are written. */
  lemma ImageRunFrame(src: Source, target: Dir, codecs: ImageCodecs, n: string)
    requires src.Listed? && ImageFiles(src.names) != []
    requires forall f :: f in ImageFiles(src.names) ==> n !in OutputsFor(f)
    ensures var r := ProcessImages(src, target, codecs);
      && r.Ran?
      && (n in r.target <==> n in target)
      && (n in target ==> r.target[n] == target[n])
  {
    var images := ImageFiles(src.names);
    var step := ImageStep(src.files, codecs);
    forall j | 0 <= j < |images|
      ensures n !in WrittenNames(step(images[j]).writes)
    {
      assert images[j] in images;
      WritesOnlyOutputs(src.files, codecs, images[j], n);
    }
    RunAllNotWritten(images, step, n);
    ApplyLookup(target, RunAll(images, step).writes, n);
  }

  /** An image's outputs have different names. */
  lemma OutputsDistinct(name: string)
    requires |OutputsFor(name)| == 2
    ensures OutputsFor(name)[0] != OutputsFor(name)[1]
  {
    DispatchCoversSelection(name);
    WebpNeverImage(name);
  }

  /** A processed image's own writes leave each output holding its own write. */
  lemma ProcessedWrites(files: map<string, Bytes>, codecs: ImageCodecs, name: string, k: int)
    requires ProcessImage(files, codecs, name).status == Processed
    requires 0 <= k < |OutputsFor(name)|
    ensures var ws := ProcessImage(files, codecs, name).writes;
      |ws| == |OutputsFor(name)| && LastWrite(ws, OutputsFor(name)[k]) == Some(ws[k].data)
  {
    var ws := ProcessImage(files, codecs, name).writes;
    assert WrittenNames(ws) == OutputsFor(name);
    assert WrittenNames(ws)[k] == ws[k].name;
    if |ws| == 2 {
      OutputsDistinct(name);
      assert WrittenNames(ws)[0] == ws[0].name && WrittenNames(ws)[1] == ws[1].name;
    }
    LastWriteOfDistinct(ws, k);
  }

  /** In a listing without repeated names, an image whose optimised copy was
      written keeps it in the output directory whatever the later images do,
      even when its WebP encoding failed: no other image writes that name. */
  lemma OptimisedCopyServed(src: Source, target: Dir, codecs: ImageCodecs, i: int)
    requires ProcessImages(src, target, codecs).Ran?
    requires NoDup(src.names)
    requires 0 <= i < |ProcessImages(src, target, codecs).statuses|
    requires ProcessImages(src, target, codecs).statuses[i] in {Processed, WebpFailed}
    ensures var r := ProcessImages(src, target, codecs);
      var name := ImageFiles(src.names)[i];
      var run := ProcessImage(src.files, codecs, name);
      && |run.writes| >= 1
      && name in r.target
      && r.target[name] == run.writes[0].data
  {
    var images := ImageFiles(src.names);
    var name := images[i];
    var step := ImageStep(src.files, codecs);
    var run := ProcessImage(src.files, codecs, name);
    assert IsImageName(name);
    DispatchCoversSelection(name);
    assert |run.writes| >= 1;
    OptimisedWrite(src.files, codecs, name);
    FilterNoDup(src.names, IsImageName);
    forall j | i < j < |images|
      ensures name !in WrittenNames(step(images[j]).writes)
    {
      OtherImageSkipsName(src.files, codecs, images[j], name);
    }
    OutputSurvivesLaterFiles(target, images, step, i, name);
  }

  /** The first write of an image is its optimised copy (or GIF copy), under its own name. */
  lemma OptimisedWrite(files: map<string, Bytes>, codecs: ImageCodecs, name: string)
    requires |ProcessImage(files, codecs, name).writes| >= 1
    ensures var ws := ProcessImage(files, codecs, name).writes;
      LastWrite(ws, name) == Some(ws[0].data)
  {
    var ws := ProcessImage(files, codecs, name).writes;
    assert WrittenNames(ws) == OutputsFor(name)[..|ws|];
    assert WrittenNames(ws)[0] == ws[0].name;
    DispatchCoversSelection(name);
    assert OutputsFor(name)[0] == name;
    if |ws| == 2 {
      OutputsDistinct(name);
      assert WrittenNames(ws)[1] == ws[1].name;
    }
    LastWriteOfDistinct(ws, 0);
  }

  /** An image never writes under another image's name. */
  lemma OtherImageSkipsName(files: map<string, Bytes>, codecs: ImageCodecs, other: string, name: string)
    requires other != name && IsImageName(name)
    ensures name !in WrittenNames(ProcessImage(files, codecs, other).writes)
  {
    WebpNeverImage(other);
    OutputsShape(other);
    WritesOnlyOutputs(files, codecs, other, name);
  }

  /** An entry's outputs are its own name, then possibly its WebP name. */
  lemma OutputsShape(name: string)
    ensures |OutputsFor(name)| <= 2
    ensures forall x :: x in OutputsFor(name) ==> x == name || x == WebpName(name)
  {
  }

  /** In writes to pairwise different names, each name holds its own write. */
  lemma LastWriteOfDistinct(ws: seq<Write>, k: int)
    requires 0 <= k < |ws| <= 2
    requires |ws| == 2 ==> ws[0].name != ws[1].name
    ensures LastWrite(ws, ws[k].name) == Some(ws[k].data)
  {
    var tail := ws[1..];
    if |ws| == 2 {
      assert tail[1..] == [];
      assert LastWrite(tail, ws[0].name) == None;
      assert LastWrite(tail, ws[1].name) == Some(ws[1].data);
    } else {
      assert tail == [];
    }
  }

  /** Running the script a second time, over its own output, changes nothing. */
  lemma RerunChangesNothing(src: Source, target: Dir, codecs: ImageCodecs)
    requires src.Listed? && ImageFiles(src.names) != []
    ensures var first := ProcessImages(src, target, codecs);
      first.Ran? && ProcessImages(src, first.target, codecs) == first
  {
    ApplyTwice(target, RunAll(ImageFiles(src.names), ImageStep(src.files, codecs)).writes);
  }

  /** The extension is matched case-insensitively and replaced in its own case:
      "A.JPG" is optimised under its own name and encoded to "A.webp". */
  lemma UpperCaseJpegExample(name: string)
    requires name == "A.JPG"
    ensures IsImageName(name) && KindOf(name) == Some(Jpeg)
    ensures OutputsFor(name) == ["A.JPG", "A.webp"]
  {
    assert LastDot(name) == 1 by {
      assert name[3] != '.' && name[2] != '.' && name[1] == '.';
    }
    assert ExtName(name) == ".JPG" by { assert name[1..] == ".JPG"; }
    assert Lower(".JPG") == ".jpg";
    assert EndsWith(name, ".JPG") by { assert name[|name| - 4..] == ".JPG"; }
    assert name[..1] == "A";
    assert WebpName(name) == "A" + ".webp" == "A.webp";
    assert OutputsFor(name) == [name, WebpName(name)];
  }

  /** A name whose only dot leads it has no extension: ".png" is not selected. */
  lemma DotFileExample(example: string)
    requires example == ".png"
    ensures !IsImageName(example)
  {
    assert example[1] != '.' && example[2] != '.' && example[3] != '.';
    assert forall i :: 0 < i < |example| ==> example[i] != '.';
    assert ExtName(example) == "";
    assert Lower("") == "";
  }

  /** A JPEG and a PNG with the same base share their WebP output: the one
      listed later overwrites the other's. */
  lemma SharedWebpExample(a: string, b: string)
    requires a == "logo.jpg" && b == "logo.png"
    ensures IsImageName(a) && IsImageName(b)
    ensures WebpName(a) == WebpName(b) == "logo.webp"
  {
    assert LastDot(a) == 4 by {
      assert a[7] != '.' && a[6] != '.' && a[5] != '.' && a[4] == '.';
    }
    assert LastDot(b) == 4 by {
      assert b[7] != '.' && b[6] != '.' && b[5] != '.' && b[4] == '.';
    }
    assert ExtName(a) == ".jpg" && ExtName(b) == ".png";
    assert Lower(".jpg") == ".jpg" && Lower(".png") == ".png";
    assert a[..4] == "logo" && b[..4] == "logo";
  }
}

=== FILE: paths.dfy ===
/** Node's `path.basename` (with a suffix argument) and `path.extname`, for the
    names a directory listing yields: plain entry names without any '/'. */
module Paths {
  import opened Text

  /** Position of the last '.' in `s`, or -1 when there is none. */
  function LastDot(s: string): (k: int)
    ensures -1 <= k < |s|
    ensures k >= 0 ==> s[k] == '.'
    ensures forall i :: k < i < |s| ==> s[i] != '.'
  {
    if s == [] then -1
    else if s[|s| - 1] == '.' then |s| - 1
    else LastDot(s[..|s| - 1])
  }

  /** `path.extname(name)`: the text from the last '.' to the end, except that a
      name with no dot, a name whose only dot leads it ('.png') and the name '..'
      have no extension. Applied to `dir + '/' + name` it gives the same result,
      because the scan stops at the last '/'. */
  function ExtName(name: string): (ext: string)
    ensures ext == "" <==> name == ".." || forall i :: 0 < i < |name| ==> name[i] != '.'
    ensures ext != "" ==> ext[0] == '.' && '.' !in ext[1..] && |ext| < |name| && EndsWith(name, ext)
  {
    var k := LastDot(name);
    if k <= 0 || name == ".." then "" else name[k..]
  }

  /** `path.basename(name, suffix)` on a bare entry name: the suffix is removed
      when the name ends with it, compared case-sensitively; a name that IS the
      suffix becomes empty. */
  function BasenameOfName(name: string, suffix: string): (r: string)
    ensures EndsWith(name, suffix) ==> r + suffix == name
    ensures !EndsWith(name, suffix) ==> r == name
  {
    if EndsWith(name, suffix) then name[..|name| - |suffix|] else name
  }

  /** `path.basename(dir + '/' + name, suffix)`: as on the bare name, except that
      a name that IS the (non-empty) suffix is kept whole, because Node never
      strips the suffix down to nothing after a '/'. */
  function BasenameOfPath(name: string, suffix: string): (r: string)
    ensures r != "" || name == ""
    ensures EndsWith(name, suffix) && |suffix| < |name| ==> r + suffix == name
    ensures !EndsWith(name, suffix) || name == suffix ==> r == name
  {
    if name == suffix then name else BasenameOfName(name, suffix)
  }
}

=== FILE: property_keys.dfy ===
/** The part of JavaScript object semantics the manifest generator depends on
    (ECMAScript section 10.1.11.1, OrdinaryOwnPropertyKeys): `Object.keys` of a
    plain object lists the keys that are array indices first, in ascending
    numeric order, and then the other string keys in the order they were first
    added. Also: the names a plain object inherits from `Object.prototype`, which
    a fresh `{}` already answers with a non-array value. */
module PropertyKeys {
  import opened Common
  import Decimal

  /** 2^32 - 2, the largest array index. */
  const MaxArrayIndex: nat := 0xFFFF_FFFE

  /** A canonical decimal numeral (no sign, no leading zero) not above 2^32 - 2. */
  predicate IsArrayIndex(k: string) {
    && |k| >= 1
    && Decimal.AllDigits(k)
    && (k[0] == '0' ==> |k| == 1)
    && Decimal.Value(k) <= MaxArrayIndex
  }

  predicate IsNamedKey(k: string) {
    !IsArrayIndex(k)
  }

  /** The numeric value of an array-index key (0 for any other key). */
  function IndexValue(k: string): nat {
    if IsArrayIndex(k) then Decimal.Value(k) else 0
  }

  /** The members of `Object.prototype` as Node exposes them: reading one of
      these from a fresh `{}` yields a function or an object, never undefined. */
  const InheritedKeys: set<string> := {
    "constructor", "__defineGetter__", "__defineSetter__", "hasOwnProperty",
    "__lookupGetter__", "__lookupSetter__", "isPrototypeOf",
    "propertyIsEnumerable", "toString", "valueOf", "__proto__", "toLocaleString"
  }

  /** A key is an array index exactly when it is how JavaScript prints some
      number between 0 and 2^32 - 2. */
  lemma ArrayIndexIsPrintedNumber(k: string)
    ensures IsArrayIndex(k) <==> exists n: nat :: n <= MaxArrayIndex && Decimal.Show(n) == k
  {
    if IsArrayIndex(k) {
      Decimal.ShowOfValue(k);
      assert Decimal.Show(Decimal.Value(k)) == k;
    }
    if exists n: nat :: n <= MaxArrayIndex && Decimal.Show(n) == k {
      var n: nat :| n <= MaxArrayIndex && Decimal.Show(n) == k;
      Decimal.ValueOfShow(n);
    }
  }

  /** Two array-index keys with the same value are the same key. */
  lemma IndexValueInjective(a: string, b: string)
    requires IsArrayIndex(a) && IsArrayIndex(b) && IndexValue(a) == IndexValue(b)
    ensures a == b
  {
    Decimal.ShowOfValue(a);
    Decimal.ShowOfValue(b);
  }

  /** Keys in non-decreasing order of `key`. */
  ghost predicate Ascending(ks: seq<string>, key: string -> nat) {
    forall i, j :: 0 <= i < j < |ks| ==> key(ks[i]) <= key(ks[j])
  }

  /** The head of an ascending list is at most every later entry. */
  lemma AscendingHead(sorted: seq<string>, key: string -> nat)
    requires sorted != [] && Ascending(sorted, key)
    ensures forall x :: x in sorted[1..] ==> key(sorted[0]) <= key(x)
  {
    forall x | x in sorted[1..]
      ensures key(sorted[0]) <= key(x)
    {
      var j :| 0 <= j < |sorted[1..]| && sorted[1..][j] == x;
      assert sorted[j + 1] == x;
    }
  }

  /** Insert `k` into a list ascending by `key`, before the first larger entry. */
  function InsertBy(k: string, sorted: seq<string>, key: string -> nat): (r: seq<string>)
    requires Ascending(sorted, key)
    ensures Ascending(r, key)
    ensures forall x :: x in r <==> x == k || x in sorted
    ensures |r| == |sorted| + 1
  {
    if sorted == [] || key(k) <= key(sorted[0]) then
      [k] + sorted
    else
      var rest := InsertBy(k, sorted[1..], key);
      AscendingHead(sorted, key);
      [sorted[0]] + rest
  }

  /** Insertion sort by `key`. */
  function SortBy(ks: seq<string>, key: string -> nat): (r: seq<string>)
    ensures Ascending(r, key)
    ensures forall x :: x in r <==> x in ks
    ensures |r| == |ks|
  {
    if ks == [] then [] else InsertBy(ks[0], SortBy(ks[1..], key), key)
  }

  /** Inserting adds exactly one occurrence of the inserted key. */
  lemma {:induction false} InsertByPermutes(k: string, sorted: seq<string>, key: string -> nat)
    requires Ascending(sorted, key)
    ensures multiset(InsertBy(k, sorted, key)) == multiset(sorted) + multiset{k}
    decreases |sorted|
  {
    if sorted != [] && key(k) > key(sorted[0]) {
      InsertByPermutes(k, sorted[1..], key);
      assert sorted == [sorted[0]] + sorted[1..];
    }
  }

  /** Sorting rearranges the keys: every key occurs as often as before. */
  lemma {:induction false} SortByPermutes(ks: seq<string>, key: string -> nat)
    ensures multiset(SortBy(ks, key)) == multiset(ks)
    decreases |ks|
  {
    if ks != [] {
      SortByPermutes(ks[1..], key);
      InsertByPermutes(ks[0], SortBy(ks[1..], key), key);
      assert ks == [ks[0]] + ks[1..];
    }
  }

  /** Inserting a new key keeps a list duplicate-free. */
  lemma {:induction false} InsertByNoDup(k: string, sorted: seq<string>, key: string -> nat)
    requires Ascending(sorted, key) && NoDup(sorted) && k !in sorted
    ensures NoDup(InsertBy(k, sorted, key))
    decreases |sorted|
  {
    if sorted == [] || key(k) <= key(sorted[0]) {
      NoDupCons(k, sorted);
    } else {
      var tail := sorted[1..];
      assert NoDup(tail) by {
        forall i, j | 0 <= i < j < |tail|
          ensures tail[i] != tail[j]
        {
          assert tail[i] == sorted[i + 1] && tail[j] == sorted[j + 1];
        }
      }
      assert Ascending(tail, key) by {
        forall i, j | 0 <= i < j < |tail|
          ensures key(tail[i]) <= key(tail[j])
        {
          assert tail[i] == sorted[i + 1] && tail[j] == sorted[j + 1];
        }
      }
      InsertByNoDup(k, tail, key);
      assert sorted[0] !in tail by {
        forall i | 0 <= i < |tail|
          ensures tail[i] != sorted[0]
        {
          assert tail[i] == sorted[i + 1];
        }
      }
      NoDupCons(sorted[0], InsertBy(k, tail, key));
    }
  }

  /** Sorting a duplicate-free list keeps it duplicate-free. */
  lemma {:induction false} SortByNoDup(ks: seq<string>, key: string -> nat)
    requires NoDup(ks)
    ensures NoDup(SortBy(ks, key))
    decreases |ks|
  {
    if ks != [] {
      var tail := ks[1..];
      assert NoDup(tail) by {
        forall i, j | 0 <= i < j < |tail|
          ensures tail[i] != tail[j]
        {
          assert tail[i] == ks[i + 1] && tail[j] == ks[j + 1];
        }
      }
      SortByNoDup(tail, key);
      assert ks[0] !in tail by {
        forall i | 0 <= i < |tail|
          ensures tail[i] != ks[0]
        {
          assert tail[i] == ks[i + 1];
        }
      }
      InsertByNoDup(ks[0], SortBy(tail, key), key);
    }
  }

  /** `Object.keys` of an object whose keys were added in the order `order`. */
  function OwnKeys(order: seq<string>): seq<string> {
    SortBy(Filter(order, IsArrayIndex), IndexValue) + Filter(order, IsNamedKey)
  }

  /** Every key of the array-index part of `Object.keys` is an array index. */
  lemma IndexPartIsIndices(order: seq<string>)
    ensures forall i :: 0 <= i < |SortBy(Filter(order, IsArrayIndex), IndexValue)| ==> IsArrayIndex(SortBy(Filter(order, IsArrayIndex), IndexValue)[i])
  {
    var idx := SortBy(Filter(order, IsArrayIndex), IndexValue);
    forall i | 0 <= i < |idx|
      ensures IsArrayIndex(idx[i])
    {
      assert idx[i] in idx;
    }
  }

  /** `Object.keys` lists exactly the keys of the object. */
  lemma OwnKeysSameKeys(order: seq<string>)
    ensures forall x :: x in OwnKeys(order) <==> x in order
  {
    forall x
      ensures x in OwnKeys(order) <==> x in order
    {
      if x in order {
        assert IsArrayIndex(x) || IsNamedKey(x);
      }
    }
  }

  /** `Object.keys` lists every key of the object exactly once. */
  lemma OwnKeysListsEachKeyOnce(order: seq<string>)
    requires NoDup(order)
    ensures forall x :: x in OwnKeys(order) <==> x in order
    ensures NoDup(OwnKeys(order))
  {
    var idx := SortBy(Filter(order, IsArrayIndex), IndexValue);
    var named := Filter(order, IsNamedKey);
    var r := OwnKeys(order);
    OwnKeysSameKeys(order);
    FilterNoDup(order, IsNamedKey);
    FilterNoDup(order, IsArrayIndex);
    SortByNoDup(Filter(order, IsArrayIndex), IndexValue);
    IndexPartIsIndices(order);
    forall i, j | 0 <= i < j < |r|
      ensures r[i] != r[j]
    {
      if j < |idx| {
        assert r[i] == idx[i] && r[j] == idx[j];
      } else if i >= |idx| {
        assert r[i] == named[i - |idx|] && r[j] == named[j - |idx|];
      } else {
        assert IsArrayIndex(r[i]) && IsNamedKey(r[j]);
      }
    }
  }

  /** `Object.keys` puts the array indices first, in strictly ascending
      numeric order. */
  lemma OwnKeysIndicesFirst(order: seq<string>)
    requires NoDup(order)
    ensures forall i, j :: 0 <= i < j < |OwnKeys(order)| && IsArrayIndex(OwnKeys(order)[j]) ==> IsArrayIndex(OwnKeys(order)[i])
    ensures forall i, j :: 0 <= i < j < |OwnKeys(order)| && IsArrayIndex(OwnKeys(order)[j]) ==> IndexValue(OwnKeys(order)[i]) < IndexValue(OwnKeys(order)[j])
  {
    var idx := SortBy(Filter(order, IsArrayIndex), IndexValue);
    var r := OwnKeys(order);
    IndexPartIsIndices(order);
    OwnKeysListsEachKeyOnce(order);
    forall i, j | 0 <= i < j < |r| && IsArrayIndex(r[j])
      ensures IsArrayIndex(r[i]) && IndexValue(r[i]) < IndexValue(r[j])
    {
      assert r[i] == idx[i] && r[j] == idx[j];
      if IndexValue(r[i]) == IndexValue(r[j]) {
        IndexValueInjective(r[i], r[j]);
      }
    }
  }

  /** `Object.keys` keeps the other keys in the order they were added. */
  lemma OwnKeysNamedInInsertionOrder(order: seq<string>)
    ensures Filter(OwnKeys(order), IsNamedKey) == Filter(order, IsNamedKey)
  {
    var idx := SortBy(Filter(order, IsArrayIndex), IndexValue);
    var named := Filter(order, IsNamedKey);
    IndexPartIsIndices(order);
    FilterAppend(idx, named, IsNamedKey);
    FilterKeepsNone(idx, IsNamedKey);
    FilterKeepsAll(named, IsNamedKey);
  }

  /** When no key is an array index, `Object.keys` is the insertion order. */
  lemma OwnKeysOfNamedKeys(order: seq<string>)
    requires forall i :: 0 <= i < |order| ==> IsNamedKey(order[i])
    ensures OwnKeys(order) == order
  {
    FilterKeepsNone(order, IsArrayIndex);
    FilterKeepsAll(order, IsNamedKey);
  }
}

=== FILE: text.dfy ===
/** The JavaScript string operations the two scripts rely on, over `seq<char>`:
    `toLowerCase` (ASCII letters only), `includes`, `endsWith` and `split` on a
    one-character separator. */
module Text {

  /** `toLowerCase` on one character, restricted to the ASCII letters. */
  function LowerChar(c: char): char {
    if 'A' <= c <= 'Z' then (c as int - 'A' as int + 'a' as int) as char else c
  }

  function Lower(s: string): string {
    seq(|s|, i requires 0 <= i < |s| => LowerChar(s[i]))
  }

  /** `s.endsWith(suffix)`. */
  predicate EndsWith(s: string, suffix: string) {
    |suffix| <= |s| && s[|s| - |suffix|..] == suffix
  }

  /** `w` occurs in `s` starting at position `i`. */
  predicate OccursAt(s: string, w: string, i: int) {
    0 <= i && i + |w| <= |s| && s[i..i + |w|] == w
  }

  /** `s.includes(w)`: `w` occurs somewhere in `s` (the empty word always does). */
  predicate Contains(s: string, w: string) {
    exists i | 0 <= i <= |s| - |w| :: OccursAt(s, w, i)
  }

  /** A slice of a slice is a slice of the original. */
  lemma SliceOfSlice(s: string, a: int, b: int, c: int, d: int)
    requires 0 <= a <= b <= |s| && 0 <= c <= d <= b - a
    ensures s[a..b][c..d] == s[a + c..a + d]
  {
    forall k | 0 <= k < d - c
      ensures s[a..b][c..d][k] == s[a + c..a + d][k]
    {
    }
  }

  /** An occurrence at a known position shows the word is contained. */
  lemma OccursThenContains(s: string, w: string, i: int)
    requires OccursAt(s, w, i)
    ensures Contains(s, w)
  {
  }

  /** Occurrence is transitive: a string containing `m` contains every word `m` contains. */
  lemma ContainsTransitive(s: string, m: string, w: string)
    requires Contains(s, m) && Contains(m, w)
    ensures Contains(s, w)
  {
    var i :| 0 <= i <= |s| - |m| && OccursAt(s, m, i);
    var j :| 0 <= j <= |m| - |w| && OccursAt(m, w, j);
    SliceOfSlice(s, i, i + |m|, j, j + |w|);
    OccursThenContains(s, w, i + j);
  }

  /** A piece of a concatenation is contained in it. */
  lemma ContainsPiece(a: string, m: string, b: string)
    ensures Contains(a + m + b, m)
  {
    assert (a + m + b)[|a|..|a| + |m|] == m;
    OccursThenContains(a + m + b, m, |a|);
  }

  /** What the left part of a concatenation contains, the whole contains. */
  lemma ContainsInLeft(a: string, b: string, w: string)
    requires Contains(a, w)
    ensures Contains(a + b, w)
  {
    var i :| 0 <= i <= |a| - |w| && OccursAt(a, w, i);
    assert (a + b)[i..i + |w|] == a[i..i + |w|];
    OccursThenContains(a + b, w, i);
  }

  /** What the right part of a concatenation contains, the whole contains. */
  lemma ContainsInRight(a: string, b: string, w: string)
    requires Contains(b, w)
    ensures Contains(a + b, w)
  {
    var i :| 0 <= i <= |b| - |w| && OccursAt(b, w, i);
    assert (a + b)[|a| + i..|a| + i + |w|] == b[i..i + |w|];
    OccursThenContains(a + b, w, |a| + i);
  }

  /** The pieces written one after another, as a script appending to a string does. */
  function Concat(pieces: seq<string>): string
    decreases |pieces|
  {
    if pieces == [] then "" else pieces[0] + Concat(pieces[1..])
  }

  /** Each piece is contained in the concatenation. */
  lemma {:induction false} ConcatHoldsEach(pieces: seq<string>, i: int)
    requires 0 <= i < |pieces|
    ensures Contains(Concat(pieces), pieces[i])
    decreases |pieces|
  {
    var rest := Concat(pieces[1..]);
    if i == 0 {
      ContainsPiece("", pieces[0], rest);
      assert "" + pieces[0] + rest == Concat(pieces);
    } else {
      ConcatHoldsEach(pieces[1..], i - 1);
      ContainsPiece(pieces[0], rest, "");
      assert pieces[0] + rest + "" == Concat(pieces);
      ContainsTransitive(Concat(pieces), rest, pieces[1..][i - 1]);
    }
  }

  /** `s.split(sep)` for a one-character separator: the maximal separator-free
      pieces, empty pieces included, so that there is always at least one. */
  function Split(s: string, sep: char): (parts: seq<string>)
    ensures |parts| >= 1
    decreases |s|
  {
    if s == [] then [""]
    else
      var rest := Split(s[1..], sep);
      if s[0] == sep then [""] + rest
      else [[s[0]] + rest[0]] + rest[1..]
  }

  /** `parts.join(sep)`. */
  function Join(parts: seq<string>, sep: char): string
    requires |parts| >= 1
  {
    if |parts| == 1 then parts[0] else parts[0] + [sep] + Join(parts[1..], sep)
  }

  /** No piece of a split contains the separator. */
  lemma {:induction false} SplitPiecesSeparatorFree(s: string, sep: char)
    ensures forall i :: 0 <= i < |Split(s, sep)| ==> sep !in Split(s, sep)[i]
    decreases |s|
  {
    if s != [] {
      SplitPiecesSeparatorFree(s[1..], sep);
      var rest := Split(s[1..], sep);
      if s[0] != sep {
        assert sep !in rest[0];
        assert forall i :: 1 <= i < |Split(s, sep)| ==> Split(s, sep)[i] == rest[i];
      } else {
        assert forall i :: 1 <= i < |Split(s, sep)| ==> Split(s, sep)[i] == rest[i - 1];
      }
    }
  }

  /** Joining the pieces of a split gives the string back. */
  lemma {:induction false} JoinSplit(s: string, sep: char)
    ensures Join(Split(s, sep), sep) == s
    decreases |s|
  {
    if s != [] {
      JoinSplit(s[1..], sep);
      var rest := Split(s[1..], sep);
      if s[0] == sep {
        assert ([""] + rest)[1..] == rest;
        assert s == [sep] + s[1..];
      } else {
        var parts := [[s[0]] + rest[0]] + rest[1..];
        if |rest| == 1 {
          assert s == [s[0]] + rest[0];
        } else {
          assert parts[1..] == rest[1..];
          assert Join(rest, sep) == rest[0] + [sep] + Join(rest[1..], sep);
          assert s == [s[0]] + s[1..];
        }
      }
    }
  }

  /** A split yields a single piece exactly when the separator is absent. */
  lemma SplitSingle(s: string, sep: char)
    ensures |Split(s, sep)| == 1 <==> sep !in s
  {
    var parts := Split(s, sep);
    JoinSplit(s, sep);
    SplitPiecesSeparatorFree(s, sep);
    if |parts| > 1 {
      assert s == parts[0] + [sep] + Join(parts[1..], sep);
      assert s[|parts[0]|] == sep;
    }
  }

  /** Splitting a separator-free word followed by more text: the word is the
      first piece, and the rest of the text continues it. */
  lemma {:induction false} SplitAfterWord(w: string, t: string, sep: char)
    requires sep !in w
    ensures Split(w + t, sep) == [w + Split(t, sep)[0]] + Split(t, sep)[1..]
    decreases |w|
  {
    if w != [] {
      assert (w + t)[1..] == w[1..] + t;
      SplitAfterWord(w[1..], t, sep);
      var p := Split(t, sep);
      var r := Split(w[1..] + t, sep);
      assert r[0] == w[1..] + p[0] && r[1..] == p[1..];
      assert (w + t)[0] == w[0] != sep;
      assert Split(w + t, sep) == [[w[0]] + r[0]] + r[1..];
      assert [w[0]] + (w[1..] + p[0]) == w + p[0];
    } else {
      assert w + t == t;
      var p := Split(t, sep);
      assert w + p[0] == p[0];
      assert p == [p[0]] + p[1..];
    }
  }

  /** Splitting a join of separator-free pieces gives the pieces back. */
  lemma {:induction false} SplitJoin(parts: seq<string>, sep: char)
    requires |parts| >= 1
    requires forall i :: 0 <= i < |parts| ==> sep !in parts[i]
    ensures Split(Join(parts, sep), sep) == parts
    decreases |parts|
  {
    if |parts| == 1 {
      SplitAfterWord(parts[0], "", sep);
      assert parts[0] + "" == parts[0];
    } else {
      var tail := [sep] + Join(parts[1..], sep);
      assert Join(parts, sep) == parts[0] + tail;
      SplitAfterWord(parts[0], tail, sep);
      SplitJoin(parts[1..], sep);
      assert tail[1..] == Join(parts[1..], sep);
      assert Split(tail, sep) == [""] + parts[1..];
      assert parts[0] + "" == parts[0];
    }
  }
}
